=== FILE: README.md ===
# CineVault watchlist core in Dafny

CineVault is a single-page movie and series tracker. The application root holds
the session state: the watchlist of title records, the record open in the detail
view, and the signed-in user. The views derive everything else from that state:

- the home feed's shelves and title search;
- the watchlist manager's filter, sort, genre menu and status tabs;
- the statistics over completed titles;
- the detail editor's save;
- the profile form.

This project models that in-memory logic and proves what each piece promises.

Modules, one per source file, plus four helpers:

| module | models |
|---|---|
| `App` | The `Movie` and `User` records. A `Store` class whose methods replace its `watchlist`, `selectedMovie` and `user` fields, as the root's state setters do. The seeded sample data. |
| `WatchlistManagement` | The status and genre filter, the four sort comparators, `allGenres`, `statusCounts` and `handleStatusChange`. |
| `StatsDashboard` | Completed titles and total watch time, as functions. The `genreStats` accumulation, as nested loops over a `map`. Top genres, average rating, top rated and `getIntensity`, as functions. The heatmap's week chunking, as a loop. |
| `Home` | The mock search, recently watched, currently watching, plan to watch, and "add from search". |
| `MovieDetail` | The editor's initial values, `handleSave`, and saving from the open detail view. |
| `UserProfile` | The genre toggle, save, cancel and `formatWatchTime`. |
| `Scenarios` | Worked examples on small watchlists. |
| `Seqs`, `Text`, `Duration`, `Wrappers` | Shared helpers (see below). |

The helpers model the JavaScript operations the components are built from:

- `Seqs` has `filter`, `slice(0, n)`, `new Set` de-duplication and the stable `Array.prototype.sort`. The sort is an insertion sort driven by `before(a, b) == (cmp(a, b) <= 0)`.
- `Text` has `toLowerCase`, `includes` and `localeCompare`.
- `Duration` has `Math.floor(t / 60)` and `t % 60`, with JavaScript's sign rule for `%`.
- `Wrappers` has `Option`.

JavaScript truthiness is modelled exactly:

- A `dateWatched` counts as set when it is present and not `""` (`HasDate`).
- A `userRating` counts as set when it is present and not `0` (`IsRated`).
- `userRating || 0` is `RatingOrZero`.
- A status of `""`, which the card's "Select Status" choice stores, fails every status test and falls back to plan-to-watch in the editor, exactly as a missing status does. Both are `None`.

Four behaviours of the code that a reader might expect to be otherwise:

- Updating a record whose id is not in the watchlist leaves the watchlist unchanged. It does not append the record (`src/App.tsx:111-115`).
- Under `dateAdded`, a record without a date does not sort last. `new Date('')` is `NaN`, and the sort reads a `NaN` comparison as `0`, so that record ties with every other (`Scenarios.DateAddedNotTransitive`).
- The search filters a fixed list of two mock results by title. There is no external lookup and no popularity order (`src/components/Home.tsx:16-51`).
- There is no external title lookup: neither the search nor the detail view fetches or merges catalog data, cast or credits. Everything comes from the watchlist and the two mock results.

## Model

| member | source | states |
|---|---|---|
| App.StatusNameInjective | src/App.tsx:20 | The five status strings are pairwise distinct, so matching a status string selects exactly one status. |
| App.RatingOrZero | src/components/WatchlistManagement.tsx:43 | The `userRating`-or-0 value is the rating when it is set and non-zero, and 0 otherwise. |
| App.Genres | src/components/WatchlistManagement.tsx:52 | `flatMap` over the genres: a genre occurs iff some record lists it. |
| App.ReplaceById | src/App.tsx:111-115 | Replacing by id keeps the list length. |
| App.ReplaceByIdAt | src/App.tsx:112-114 | At every index, an entry with the update's id becomes the update and every other entry is unchanged. |
| App.ReplaceByIdAbsent | src/App.tsx:112-114 | An update whose id is not present leaves the watchlist unchanged. |
| App.ReplaceByIdIdempotent | src/App.tsx:112-114 | Applying the same update twice equals applying it once. |
| App.ReplaceByIdKeepsIds | src/App.tsx:112-114 | The id at every index is unchanged. |
| App.ReplaceByIdKeepsUniqueIds | src/App.tsx:112-114 | If ids were unique before the update, they are unique after it. |
| App.AppendCountsId | src/App.tsx:117-119 | Appending adds one to the count of the new id. If that id was already present, two entries now carry it (there is no duplicate check). |
| App.AppendUniqueIds | src/App.tsx:117-119 | Appending keeps ids unique iff the new record's id is not already present. |
| App.SampleMovies | src/App.tsx:49-90 | Three sample records. Every one has a status and a positive runtime, and a record carries episode progress iff it is a series. |
| App.SampleUser | src/App.tsx:95-102 | The mocked user's favourite genres are distinct and each tags some sample record; the watch time is not negative. |
| App.SampleMoviesUniqueIds | src/App.tsx:49-90 | The seeded sample records have distinct ids. |
| App.Store.constructor | src/App.tsx:43-46 | The first render's state: no user, no open record, an empty watchlist. |
| App.Store.SetWatchlist | src/App.tsx:93 | The watchlist becomes the given list; the open record and the user are unchanged. |
| App.Store.UpdateMovieInWatchlist | src/App.tsx:111-115 | The new watchlist is the old one with entries replaced by id. Length and unique ids are preserved, each index follows the replace rule, and the other fields are unchanged. |
| App.Store.AddToWatchlist | src/App.tsx:117-119 | The new watchlist is old ++ [movie] and the new id's count grows by one. The other fields are unchanged. |
| App.Store.SelectMovie | src/App.tsx:137 | Opens the detail view on the record and leaves the watchlist and user unchanged. |
| App.Store.CloseDetail | src/App.tsx:126 | Clears the open record and leaves the watchlist and user unchanged. |
| App.Store.SetUser | src/App.tsx:194 | Stores the saved profile and leaves the watchlist and open record unchanged. |
| App.Mount | src/App.tsx:43-103 | Starting from the empty state, the mount effect's two setters leave the sample list (ids unique) as the watchlist, no record open, and the mocked user signed in. |
| WatchlistManagement.FilteredMovies | src/components/WatchlistManagement.tsx:29-33 | The result is an order-preserving subsequence. A record is kept iff (status filter is "all" or names its status) and (genre filter is "all" or is among its genres), and each kept record appears as many times as in the watchlist. |
| WatchlistManagement.FilterAllShowsEverything | src/components/WatchlistManagement.tsx:30-32 | With "all" and "all", the whole watchlist is shown in order. |
| WatchlistManagement.FilterByStatus | src/components/WatchlistManagement.tsx:30-31 | A status filter with every genre gives exactly the records with that status, in order. |
| WatchlistManagement.Compare | src/components/WatchlistManagement.tsx:36-48 | Per key, when `a` may stay in front of `b`: title when a's title sorts no later (0 iff equal titles); year when a's year is no smaller; rating when a's rating-or-0 is no smaller; dateAdded, with both dates set, when a's date is no earlier. dateAdded with a date missing, and any other key, give 0. |
| WatchlistManagement.CompareAntisymmetric | src/components/WatchlistManagement.tsx:36-48 | Swapping the two records negates every comparator. |
| WatchlistManagement.Before | src/components/WatchlistManagement.tsx:36 | The sort's "may stay in front" relation for a key orders any two records one way or the other. |
| WatchlistManagement.BeforeTransitive | src/components/WatchlistManagement.tsx:38-43 | The title, year and rating comparators are transitive. |
| WatchlistManagement.SortedMovies | src/components/WatchlistManagement.tsx:36-48 | The result is a permutation (multiset) of the filtered list, with each neighbour pair ordered by the key's comparator. |
| WatchlistManagement.SortedMoviesOrder | src/components/WatchlistManagement.tsx:38-45 | Neighbours: titles are non-decreasing, years non-increasing, ratings (missing counts as 0) non-increasing, and dates non-increasing where both are set. |
| WatchlistManagement.UnknownKeyKeepsOrder | src/components/WatchlistManagement.tsx:46-47 | An unrecognised key keeps the filtered order. |
| WatchlistManagement.YearSortStable | src/components/WatchlistManagement.tsx:36-41 | Records of the same year keep their filtered order. |
| WatchlistManagement.AllGenres | src/components/WatchlistManagement.tsx:52 | Every genre of every record appears, and none appears twice. |
| WatchlistManagement.CountStatus | src/components/WatchlistManagement.tsx:57-61 | The number of records with a status is the length of that status's tab, and at most the watchlist length. |
| WatchlistManagement.GetStatusCounts | src/components/WatchlistManagement.tsx:55-62 | `all` is the watchlist length, the length of the "all" tab. Each of the five counts is the length of its status's tab. The five sum to at most `all`, with equality when every record has a status. |
| WatchlistManagement.StatusCountsAddUp | src/components/WatchlistManagement.tsx:55-62 | The five status counts plus the records with no status equal the watchlist length. |
| WatchlistManagement.HandleStatusChange | src/components/WatchlistManagement.tsx:64-70 | The status becomes the chosen one, or none for the "Select Status" choice (`""`, line 221). Today's date is set only when the record becomes completed without a date. Every other field, including an existing date, is unchanged. |
| WatchlistManagement.StampedOnce | src/components/WatchlistManagement.tsx:65-68 | Once a date is set, a later status change does not move it. |
| WatchlistManagement.StatusChangeIdempotent | src/components/WatchlistManagement.tsx:64-68 | Choosing the same status twice equals choosing it once. |
| WatchlistManagement.GridAsWritten | src/components/WatchlistManagement.tsx:152-154 | The grid render throws iff some record has no status; otherwise it draws one card per record, each with its status's label. |
| WatchlistManagement.SelectStatusBreaksGrid | src/components/WatchlistManagement.tsx:216-221 | Choosing "Select Status" on any card makes the next render of the unfiltered grid throw, for every sort key. |
| WatchlistManagement.GridAgreesWhenDrawn | src/components/WatchlistManagement.tsx:152-174 | Whenever the grid as written draws, the corrected grid shows the same badge on every card. |
| WatchlistManagement.Grid | src/components/WatchlistManagement.tsx:152-174 | The intended grid: one card per record, with no badge exactly for the records without a status and the status's label otherwise. |
| WatchlistManagement.SelectStatusKeepsCard | src/components/WatchlistManagement.tsx:216-221 | With the intended grid, a card set to "Select Status" is still drawn, without a badge. |
| StatsDashboard.CompletedMovies | src/components/StatsDashboard.tsx:15 | Exactly the completed records, in watchlist order, each as many times as in the watchlist. |
| StatsDashboard.CompletedAgreesWithTab | src/components/StatsDashboard.tsx:17 | The "Movies Completed" card equals the manager's completed count. |
| StatsDashboard.TotalWatchTime | src/components/StatsDashboard.tsx:15-16 | The completed runtimes added up: 0 when nothing is completed, the sum of every runtime when everything is. |
| StatsDashboard.CompletedNoneOrAll | src/components/StatsDashboard.tsx:15 | With nothing completed the completed list is empty; with everything completed it is the whole watchlist. |
| StatsDashboard.RuntimeSumConcat | src/components/StatsDashboard.tsx:16 | The runtime sum of a concatenation is the sum of the two parts. |
| StatsDashboard.RuntimeSumNonNegative | src/components/StatsDashboard.tsx:16 | Non-negative runtimes give a non-negative sum. |
| StatsDashboard.TotalWatchTimeAppend | src/components/StatsDashboard.tsx:15-16 | Appending a record adds its runtime to the total iff it is completed. |
| StatsDashboard.TotalWatchTimeNonNegative | src/components/StatsDashboard.tsx:16 | Non-negative runtimes give a non-negative total. |
| StatsDashboard.WatchTimeCard | src/components/StatsDashboard.tsx:194 | With non-negative runtimes, 60·hours + minutes is the total, with 0 <= minutes < 60. |
| StatsDashboard.TalliesSnoc | src/components/StatsDashboard.tsx:22 | One increment of `acc[genre]` (missing counts as 0) step turns the histogram of a tag list into the histogram of that list plus the genre. |
| StatsDashboard.Bump | src/components/StatsDashboard.tsx:22 | The update step as a method: the histogram invariant is extended by one tag. |
| StatsDashboard.CountGenres | src/components/StatsDashboard.tsx:21-23 | The `forEach` over one record's genres extends the histogram by all its tags. |
| StatsDashboard.GenreStats | src/components/StatsDashboard.tsx:20-25 | Keys are the distinct genres of the completed records in first-insertion order. Each count is the genre's number of occurrences. |
| StatsDashboard.GenreCountsAddUp | src/components/StatsDashboard.tsx:20-25 | The histogram's counts sum to the number of genre tags. |
| StatsDashboard.Entries | src/components/StatsDashboard.tsx:27 | `Object.entries`: the pair at each position is the key in that position and its count. |
| StatsDashboard.TopGenres | src/components/StatsDashboard.tsx:27-29 | Exactly min(5, number of entries) entries, drawn from the histogram without extra copies (multiset inclusion), counts non-increasing. |
| StatsDashboard.TopGenresAreTop | src/components/StatsDashboard.tsx:27-29 | A genre left out is no more frequent than any genre shown. |
| StatsDashboard.TopGenresTiesInOrder | src/components/StatsDashboard.tsx:28 | Genres with equal counts keep their first-encountered order. |
| StatsDashboard.RatingSum | src/components/StatsDashboard.tsx:221 | The sum of rating-or-0 is 0 when nothing is rated and not negative when no rating is. |
| StatsDashboard.RatingSumOverRated | src/components/StatsDashboard.tsx:221 | Summing the `userRating`-or-0 value over all completed records equals summing over the rated ones only. |
| StatsDashboard.RatedCompleted | src/components/StatsDashboard.tsx:220 | Exactly the completed records with a non-zero rating, as an order-preserving subsequence of the watchlist, each as many times as in the watchlist. |
| StatsDashboard.Mean | src/components/StatsDashboard.tsx:220-224 | Is 0 for no values; otherwise mean·n equals the total. |
| StatsDashboard.AverageRating | src/components/StatsDashboard.tsx:220-224 | Is 0 when nothing is rated; otherwise the mean of the rated completed ratings, with unrated records in neither the sum nor the count. |
| StatsDashboard.TopRated | src/components/StatsDashboard.tsx:275-278 | Exactly min(5, number of rated completed records), drawn from them without extra copies (multiset inclusion), ratings non-increasing. |
| StatsDashboard.TopRatedAreTop | src/components/StatsDashboard.tsx:275-278 | A rated completed record left out is rated no higher than any record shown. |
| StatsDashboard.Weeks | src/components/StatsDashboard.tsx:115-124 | The weeks concatenate back to the day list. Every week but the last has 7 days and the last has 1 to 7. There are no weeks iff there are no days. |
| StatsDashboard.GetIntensity | src/components/StatsDashboard.tsx:108-113 | 0, 1 and 2 each get their own shade; every other count gets the brightest. |
| StatsDashboard.IntensityMonotone | src/components/StatsDashboard.tsx:108-113 | For counts >= 0, more views never give a darker shade, and the shade rank is min(count, 3). |
| Home.MockSearchResults | src/components/Home.tsx:16-39 | Two results with distinct ids that no sample record uses, carrying no status, rating, progress or date. |
| Home.HandleSearch | src/components/Home.tsx:41-51 | Nothing for a query of 2 characters or fewer. Otherwise an order-preserving selection of the two mock results that holds exactly those whose lower-cased title contains the lower-cased query. |
| Home.Search | src/components/Home.tsx:41-51 | A query of 2 characters or fewer gives nothing. A longer one gives, in order, exactly the candidates whose lower-cased title contains the lower-cased query. |
| Home.SearchIgnoresCase | src/components/Home.tsx:46 | Lower-casing the query does not change the results. |
| Home.SearchFindsDune | src/components/Home.tsx:16-47 | "DUN" finds Dune and not Stranger Things. |
| Home.SortedByDateIsNewestFirst | src/components/Home.tsx:55-56 | Dated records sorted by date and cut to 6: min(6, n) of them, without extra copies, newest first. |
| Home.RecentlyWatched | src/components/Home.tsx:53-56 | Exactly min(6, number of completed dated records), drawn from them without extra copies (multiset inclusion), dates non-increasing. |
| Home.RecentlyWatchedAreNewest | src/components/Home.tsx:53-56 | A completed, dated record left off the shelf is no newer than any record on it. |
| Home.CurrentlyWatching | src/components/Home.tsx:58 | Exactly the watching records, in watchlist order, each as many times as in the watchlist. |
| Home.CurrentlyWatchingIsTab | src/components/Home.tsx:58 | The same list as the manager's "watching" tab. |
| Home.PlanToWatchShelf | src/components/Home.tsx:59 | The first min(4, n) plan-to-watch records, in watchlist order. |
| Home.AddFromSearch | src/components/Home.tsx:104 | Status becomes plan-to-watch and every other field is unchanged. |
| Home.AddedShowsOnShelf | src/components/Home.tsx:59 | A title added from search appears on the plan-to-watch shelf while fewer than 4 are planned. |
| MovieDetail.InitialEditor | src/components/MovieDetail.tsx:13-17 | The editor starts with the rating-or-0; a present review and notes copied, "" when absent; the status, plan-to-watch when absent; a present non-zero episode copied, 1 otherwise. |
| MovieDetail.TotalEpisodes | src/components/MovieDetail.tsx:37 | The stored total when it is present and non-zero, else 50. Never 0. |
| MovieDetail.HandleSave | src/components/MovieDetail.tsx:28-42 | Catalog fields are unchanged. A rating of 0 is saved as absent, any other as itself. An empty review or notes is saved as absent, any other as itself. The status is set. A series gets {episode, total or 50} and a film gets no progress. The date is stamped only when the record becomes completed without one. |
| MovieDetail.SaveDatesLikeStatusChange | src/components/MovieDetail.tsx:39-41 | The save's date rule matches the manager's status-change rule. |
| MovieDetail.SaveIdempotent | src/components/MovieDetail.tsx:28-42 | Saving the saved record again with the same editor values gives the same record. |
| MovieDetail.ReopenAndSave | src/components/MovieDetail.tsx:13-42 | Reopening a saved record and saving without edits gives it back, for any non-zero episode. |
| MovieDetail.SaveInOpenView | src/App.tsx:111-128 | "Save Changes" saves against the record the view was opened with; the watchlist gets the saved record and the open record stays as it was. |
| MovieDetail.SaveTwiceRestamps | src/components/MovieDetail.tsx:39-41 | Completing a record and saving twice in one open view, on days d1 and d2: the first save stamps d1, the second stamps d2 over it. |
| MovieDetail.SaveInOpenViewRefreshed | src/App.tsx:111-128 | The intended save: the watchlist gets the saved record and the open view moves on to it. |
| MovieDetail.SaveTwiceKeepsStamp | src/components/MovieDetail.tsx:39-41 | With the refreshed view, a second save returns the first save's record unchanged, so the first stamp stays. |
| UserProfile.FormOf | src/components/UserProfile.tsx:13-17 | The form starts with the user's name, email and genre list. |
| UserProfile.ToggleGenre | src/components/UserProfile.tsx:25-31 | An absent genre is appended. A present one is removed everywhere: the result is a shorter order-preserving subsequence that holds no copy of it and exactly as many copies of every other genre as before. Membership flips for that genre only; name and email are kept. |
| UserProfile.ToggleTwiceRestores | src/components/UserProfile.tsx:25-30 | Toggling an absent genre twice restores the list. |
| UserProfile.ToggleTwiceMovesToEnd | src/components/UserProfile.tsx:25-30 | Toggling a present genre twice moves it to the end. |
| UserProfile.HandleSave | src/components/UserProfile.tsx:33-39 | Only name, email and genres change, and they take the form's values. Id, avatar and watch time are kept. |
| UserProfile.HandleCancel | src/components/UserProfile.tsx:45-50 | The form resets to values that, when saved, leave the user unchanged. |
| UserProfile.SaveThenCancel | src/components/UserProfile.tsx:33-50 | Cancelling after a save shows the saved values. |
| UserProfile.FormatWatchTime | src/components/UserProfile.tsx:54-58 | For minutes >= 0, hours·60 + rem = minutes with 0 <= rem < 60. |
| Duration.JsRemainder60 | src/components/StatsDashboard.tsx:194 | `% 60` differs from the dividend by a multiple of 60, takes the dividend's sign, and has magnitude below 60, which fixes it to JavaScript's remainder. |
| Duration.HoursMinutes | src/components/UserProfile.tsx:54-58 | For minutes >= 0 the split is exact (60·hours + minutes). For negative minutes the hours round down while the remainder keeps the minus sign, so 60·hours + minutes falls 60 short unless the minutes are a multiple of 60. |
| Text.Lower | src/components/Home.tsx:46 | Lower-casing keeps the length and maps each character. |
| Text.LowerIdempotent | src/components/Home.tsx:46 | Lower-casing twice equals lower-casing once. |
| Text.Includes | src/components/Home.tsx:46 | True iff the needle occurs at some index. |
| Text.Compare | src/components/WatchlistManagement.tsx:39 | Is -1, 0 or 1, and 0 iff the strings are equal. A proper prefix sorts first. Otherwise, at the first position where the strings differ, the string with the smaller character code sorts first. |
| Text.CompareAntisymmetric | src/components/WatchlistManagement.tsx:39 | Swapping the arguments negates the result. |
| Text.AtMostTransitive | src/components/WatchlistManagement.tsx:39 | The title order is transitive. |
| Seqs.Filter | src/components/StatsDashboard.tsx:15 | `filter`: an order-preserving subsequence in which each element that passes occurs as often as in the input and no other element occurs. |
| Seqs.FilterFilter | src/components/StatsDashboard.tsx:220 | Filtering twice is filtering once by both tests. |
| Seqs.Take | src/components/Home.tsx:59 | `slice(0, n)`: the prefix of length min(n, length), whose multiset is contained in the input's. |
| Seqs.Dedup | src/components/WatchlistManagement.tsx:52 | `Array.from(new Set(s))`: no duplicates and the same members. |
| Seqs.DedupFirstOccurrence | src/components/WatchlistManagement.tsx:52 | `Dedup` keeps the order of first occurrence: whenever one element comes before another in the result, the first occurs in `s` before any occurrence of the second. |
| Seqs.SortBy | src/components/WatchlistManagement.tsx:36 | The sort returns a permutation (multiset) of the same length. |
| Seqs.SortBySorted | src/components/WatchlistManagement.tsx:36 | With a total comparator the result is sorted. |
| Seqs.SortByStable | src/components/WatchlistManagement.tsx:36 | Elements the comparator treats as equal keep their input order. |
| Seqs.SortByKeepsOrder | src/components/WatchlistManagement.tsx:46-47 | A comparator that ties everything leaves the order unchanged. |
| Seqs.TakeSortBy | src/components/StatsDashboard.tsx:27-29 | The first n of a sort under a total comparator: min(n, length) elements, without extra copies, in sorted order. |
| Seqs.TakeSortedIsTop | src/components/StatsDashboard.tsx:27-29 | The first n of a sorted list are its best: an element left out may not precede any element kept. |
| Scenarios.TitleSortExample | src/components/WatchlistManagement.tsx:38-39 | The Dark Knight, Inception, Breaking Bad sort by title to Breaking Bad, Inception, The Dark Knight. |
| Scenarios.GenreHistogramExample | src/components/StatsDashboard.tsx:20-25 | Records tagged [Action, Drama] and [Drama] give keys Action, Drama with counts 1 and 2. |
| Scenarios.AverageRatingExample | src/components/StatsDashboard.tsx:220-224 | Ratings 8 and 10, with one unrated record, average to 9. |
| Scenarios.AverageRatingEmpty | src/components/StatsDashboard.tsx:220-224 | With nothing rated the average is 0. |
| Scenarios.AddedShowsInPlanTab | src/components/Home.tsx:104 | A title added from search appears under the manager's plan-to-watch tab. |
| Scenarios.DateAddedNotTransitive | src/components/WatchlistManagement.tsx:44-45 | An undated record ties with both an older and a newer dated record, which are not tied with each other. |

## Left out

- Rendering: JSX, styling, icons, hover state and the React hook wiring. `isEditing` only enables the inputs; it does not change what a save computes.
- The pie chart geometry (`src/components/StatsDashboard.tsx:51-104`), the progress-bar percentages and `toFixed(1)`: all are floating-point display. The average is modelled as a real mean.
- The heatmap's day list (`src/components/StatsDashboard.tsx:32-46`): it is generated with `Math.random` and `Date` stepping. `Weeks` takes the day list as a parameter. The year and genre selectors of the statistics view feed nothing but that generator and the menu.
- The wall clock: "today" (`new Date().toISOString().split('T')[0]`) is a `today` parameter.
- Dates are `YYYY-MM-DD` strings. `new Date(b) - new Date(a)` is modelled by comparing the strings, which agrees with the timestamp order for dates in that form.
- `localeCompare` is modelled as character-code order and `toLowerCase` as ASCII lower-casing. Locale collation and Unicode case mapping are not modelled.
- `Object.entries` and `Object.keys` are modelled in insertion order. JavaScript lists integer-like keys first; a genre named like an integer is not modelled.
- Strings are not produced: `formatWatchTime` and the watch-time card are modelled as their (hours, minutes) pair, not the rendered text.
- `currentEpisode` is modelled as an integer. The episode input stores `Number(e.target.value)` (src/components/MovieDetail.tsx:161), so typing a fraction such as "2.5" stores 2.5; the model does not capture fractional episodes. An empty input gives `Number("") == 0`, which is modelled.
- `query.length` counts UTF-16 code units, while `|query|` counts characters. The two differ for characters outside the Basic Multilingual Plane, such as emoji, so the model's length gate can differ from the source's on such queries.
- `genreStats` starts from a plain `{}`, so a genre named like an inherited member (`constructor`, `toString`) reads that member as its first count. The model's map starts empty and does not model this.
- Under `dateAdded` with an undated record the comparator is inconsistent, and JavaScript leaves the resulting order to the engine. The model's insertion sort fixes one such order; what it proves without transitivity (a permutation, neighbours ordered where both are dated) holds for it, not for every engine.
- The other files of the application (the header, the animated background, the sound helper, the sign-in dialog, styling configuration) are not part of this model.

## Findings

| source | as written | input that shows it | evidently intended | confidence | as-written member | corrected member |
|---|---|---|---|---|---|---|
| src/components/WatchlistManagement.tsx:153-154 | Every card reads `statusConfig[movie.status!].icon`; for a record without a status the lookup is `undefined` and the read throws. | Choose "Select Status" (line 221) on any card: the record is stored with status `""` and the next render of the grid throws. | A record without a status is drawn without a badge. | not executed | WatchlistManagement.SelectStatusBreaksGrid | WatchlistManagement.SelectStatusKeepsCard |
| src/App.tsx:111-128 | After `onUpdate` the open detail view keeps its old `movie` prop, so the next save tests `!movie.dateWatched` on the record as it was before the first save (MovieDetail.tsx:39-41). | Open a record without a date, set Completed and save on day d1; press Edit and save again on day d2: the date becomes d2. | The watch date is stamped once, on first completion. | not executed | MovieDetail.SaveTwiceRestamps | MovieDetail.SaveTwiceKeepsStamp |

## Notes on proof structure

- `WatchlistManagement.Before("dateAdded")` is total but not transitive. `Home.RecentlyWatchedAreNewest` relies on transitivity only among dated records (`Seqs.TransitiveOn`).
- `StatsDashboard.GenreStats` is two nested loops. The invariant `Tallies` says the map and the key list are the histogram of the tags seen so far. It is kept by `Bump`, whose lemma is `TalliesSnoc`.

=== FILE: app.dfy ===
/**
 * The title record, the user record and the session store of the application
 * root: the watchlist, the title open in the detail view and the signed-in
 * user. Every view reads the watchlist from here; edits come back through
 * `UpdateMovieInWatchlist` (replace by id) and `AddToWatchlist` (append).
 */
module App {
  import opened Wrappers
  import opened Seqs

  datatype Status = Watching | PlanToWatch | Completed | Dropped | OnHold

  /** The `type` field: 'movie' or 'series'. */
  datatype MediaType = Film | Series

  datatype Progress = Progress(currentEpisode: int, totalEpisodes: int)

  /**
   * A title record. `id` through `description` and `mediaType` are catalog
   * fields; `status` through `dateWatched` are the user's own and may be absent.
   * `dateWatched` is a `YYYY-MM-DD` string.
   */
  datatype Movie = Movie(
    id: int,
    title: string,
    poster: string,
    year: int,
    genre: seq<string>,
    runtime: int,
    rating: real,
    description: string,
    status: Option<Status>,
    userRating: Option<int>,
    userReview: Option<string>,
    userNotes: Option<string>,
    progress: Option<Progress>,
    dateWatched: Option<string>,
    mediaType: MediaType)

  datatype User = User(
    id: string,
    name: string,
    email: string,
    avatar: string,
    favoriteGenres: seq<string>,
    totalWatchTime: int)

  /** The string a status is written as in the source. */
  function StatusName(s: Status): string {
    match s
    case Watching => "watching"
    case PlanToWatch => "plan-to-watch"
    case Completed => "completed"
    case Dropped => "dropped"
    case OnHold => "on-hold"
  }

  /** Different statuses have different names, so matching by name is matching by status. */
  lemma StatusNameInjective(s: Status, t: Status)
    ensures StatusName(s) == StatusName(t) <==> s == t
  {
  }

  /** `movie.status === st` */
  function HasStatus(st: Status): Movie -> bool {
    (m: Movie) => m.status == Some(st)
  }

  /** JavaScript truthiness of `movie.dateWatched`: present and not the empty string. */
  predicate HasDate(d: Option<string>) {
    d.Some? && d.value != ""
  }

  /** JavaScript truthiness of `movie.userRating`: present and not 0. */
  predicate IsRated(m: Movie) {
    m.userRating.Some? && m.userRating.value != 0
  }

  /** `movie.userRating || 0` */
  function RatingOrZero(m: Movie): (r: int)
    ensures IsRated(m) ==> r == m.userRating.value
    ensures !IsRated(m) ==> r == 0
  {
    m.userRating.GetOr(0)
  }

  /** Every genre of every record, in watchlist order (`watchlist.flatMap(m => m.genre)`). */
  function Genres(ws: seq<Movie>): (r: seq<string>)
    ensures forall g :: g in r <==> exists i :: 0 <= i < |ws| && g in ws[i].genre
  {
    if ws == [] then []
    else
      var init := ws[..|ws| - 1];
      assert forall i :: 0 <= i < |init| ==> init[i] == ws[i];
      Genres(init) + ws[|ws| - 1].genre
  }

  lemma GenresSnoc(ws: seq<Movie>, m: Movie)
    ensures Genres(ws + [m]) == Genres(ws) + m.genre
  {
    assert (ws + [m])[..|ws + [m]| - 1] == ws;
  }

  // ---------------------------------------------------------------------
  // Replacing a record by id: `prev.map(m => m.id === updated.id ? updated : m)`.

  function ReplaceById(ws: seq<Movie>, updated: Movie): (r: seq<Movie>)
    ensures |r| == |ws|
  {
    if ws == [] then []
    else [if ws[0].id == updated.id then updated else ws[0]] + ReplaceById(ws[1..], updated)
  }

  /** Every entry with the updated id becomes the update; every other entry stays where it was. */
  lemma {:induction false} ReplaceByIdAt(ws: seq<Movie>, updated: Movie, i: int)
    requires 0 <= i < |ws|
    ensures ReplaceById(ws, updated)[i] == if ws[i].id == updated.id then updated else ws[i]
  {
    if i > 0 {
      ReplaceByIdAt(ws[1..], updated, i - 1);
    }
  }

  /** An update whose id is not in the watchlist changes nothing. */
  lemma {:induction false} ReplaceByIdAbsent(ws: seq<Movie>, updated: Movie)
    requires forall i :: 0 <= i < |ws| ==> ws[i].id != updated.id
    ensures ReplaceById(ws, updated) == ws
  {
    if ws != [] {
      ReplaceByIdAbsent(ws[1..], updated);
    }
  }

  /** Applying the same update twice is applying it once. */
  lemma {:induction false} ReplaceByIdIdempotent(ws: seq<Movie>, updated: Movie)
    ensures ReplaceById(ReplaceById(ws, updated), updated) == ReplaceById(ws, updated)
  {
    if ws != [] {
      ReplaceByIdIdempotent(ws[1..], updated);
    }
  }

  /** Replacing keeps the list of ids. */
  lemma {:induction false} ReplaceByIdKeepsIds(ws: seq<Movie>, updated: Movie, i: int)
    requires 0 <= i < |ws|
    ensures ReplaceById(ws, updated)[i].id == ws[i].id
  {
    ReplaceByIdAt(ws, updated, i);
  }

  /** No two entries share an id. */
  predicate UniqueIds(ws: seq<Movie>) {
    forall i, j :: 0 <= i < j < |ws| ==> ws[i].id != ws[j].id
  }

  /** Replacing by id keeps ids unique. */
  lemma ReplaceByIdKeepsUniqueIds(ws: seq<Movie>, updated: Movie)
    requires UniqueIds(ws)
    ensures UniqueIds(ReplaceById(ws, updated))
  {
    forall i | 0 <= i < |ws| {
      ReplaceByIdKeepsIds(ws, updated, i);
    }
  }

  /** `m => m.id === id` */
  function HasId(id: int): Movie -> bool {
    (m: Movie) => m.id == id
  }

  /** The number of entries with the given id. */
  function CountId(ws: seq<Movie>, id: int): nat {
    |Filter(ws, HasId(id))|
  }

  /** Appending performs no id check: the appended record's id is counted once more. */
  lemma AppendCountsId(ws: seq<Movie>, m: Movie)
    ensures CountId(ws + [m], m.id) == CountId(ws, m.id) + 1
    ensures (exists i :: 0 <= i < |ws| && ws[i].id == m.id) ==> CountId(ws + [m], m.id) >= 2
  {
    FilterConcat(ws, [m], HasId(m.id));
    assert Filter([m], HasId(m.id)) == [m];
    if i :| 0 <= i < |ws| && ws[i].id == m.id {
      assert ws[i] in Filter(ws, HasId(m.id));
    }
  }

  /** Appending keeps ids unique exactly when the new id is not already present. */
  lemma AppendUniqueIds(ws: seq<Movie>, m: Movie)
    requires UniqueIds(ws)
    ensures UniqueIds(ws + [m]) <==> forall i :: 0 <= i < |ws| ==> ws[i].id != m.id
  {
    var ext := ws + [m];
    assert forall i :: 0 <= i < |ws| ==> ext[i] == ws[i];
    assert ext[|ws|] == m;
    if UniqueIds(ext) {
      forall i | 0 <= i < |ws| ensures ws[i].id != m.id {
        assert ext[i].id != ext[|ws|].id;
      }
    }
  }

  // ---------------------------------------------------------------------
  // The seeded session state.

  /**
   * The three sample records the watchlist is seeded with: every one has a
   * status, and exactly the series carries episode progress.
   */
  function SampleMovies(): (r: seq<Movie>)
    ensures |r| == 3
    ensures forall i :: 0 <= i < |r| ==> r[i].status.Some? && r[i].runtime > 0
    ensures forall i :: 0 <= i < |r| ==> (r[i].progress.Some? <==> r[i].mediaType == Series)
  {
    // Each long literal is the source's string split into `+` pieces; the
    // concatenation is that string, and the split only keeps verification fast.
    [
      Movie(1, "The Dark Knight",
        "https://"
        + "images.pexels.com/"
        + "photos/1179229/"
        + "pexels-photo-1179229.jpeg?"
        + "auto=compress&"
        + "cs=tinysrgb&w=300",
        2008, ["Action", "Crime", "Drama"], 152, 9.0,
        "When a menace known as "
        + "the Joker wreaks havoc "
        + "and chaos on the people "
        + "of Gotham, Batman must "
        + "accept one of the "
        + "greatest psychological "
        + "and physical tests.",
        Some(Completed), Some(9), None, None, None, Some("2024-01-15"), Film),
      Movie(2, "Breaking Bad",
        "https://"
        + "images.pexels.com/"
        + "photos/1040160/"
        + "pexels-photo-1040160.jpeg?"
        + "auto=compress&"
        + "cs=tinysrgb&w=300",
        2008, ["Crime", "Drama", "Thriller"], 47, 9.5,
        "A chemistry teacher "
        + "diagnosed with "
        + "inoperable lung cancer "
        + "turns to manufacturing "
        + "and selling "
        + "methamphetamine.",
        Some(Watching), Some(10), None, None, Some(Progress(45, 62)), None, Series),
      Movie(3, "Inception",
        "https://"
        + "images.pexels.com/"
        + "photos/1157557/"
        + "pexels-photo-1157557.jpeg?"
        + "auto=compress&"
        + "cs=tinysrgb&w=300",
        2010, ["Action", "Sci-Fi", "Thriller"], 148, 8.8,
        "A thief who steals "
        + "corporate secrets "
        + "through dream-sharing "
        + "technology is given the "
        + "inverse task of "
        + "planting an idea.",
        Some(PlanToWatch), None, None, None, None, None, Film)
    ]
  }

  /** The mocked signed-in user; each favourite genre is listed once and tags a sample record. */
  function SampleUser(): (u: User)
    ensures NoDuplicates(u.favoriteGenres) && u.totalWatchTime >= 0
    ensures forall g :: g in u.favoriteGenres ==> g in Genres(SampleMovies())
  {
    // Each long literal is the source's string split into `+` pieces; the
    // concatenation is that string, and the split only keeps verification fast.
    User("1", "Movie Enthusiast", "user@cinevault.com",
      "https://"
      + "images.pexels.com/"
      + "photos/1040880/"
      + "pexels-photo-1040880.jpeg?"
      + "auto=compress&"
      + "cs=tinysrgb&w=150",
      ["Action", "Drama", "Sci-Fi"], 2847)
  }

  lemma SampleMoviesUniqueIds()
    ensures UniqueIds(SampleMovies())
  {
    var ws := SampleMovies();
    assert ws[0].id == 1 && ws[1].id == 2 && ws[2].id == 3;
  }

  /** The session state held by the application root. */
  class Store {
    var watchlist: seq<Movie>
    var selectedMovie: Option<Movie>
    var user: Option<User>

    /** The initial state: nobody signed in, no open record, an empty watchlist. */
    constructor ()
      ensures watchlist == []
      ensures selectedMovie == None
      ensures user == None
    {
      watchlist := [];
      selectedMovie := None;
      user := None;
    }

    /** `setWatchlist`: replaces the whole watchlist. */
    method SetWatchlist(ws: seq<Movie>)
      modifies this
      ensures watchlist == ws
      ensures selectedMovie == old(selectedMovie) && user == old(user)
    {
      watchlist := ws;
    }

    /**
     * Replaces every entry whose id is the update's. The open detail view
     * keeps the record it was opened with.
     */
    method UpdateMovieInWatchlist(updated: Movie)
      modifies this
      ensures watchlist == ReplaceById(old(watchlist), updated)
      ensures |watchlist| == |old(watchlist)|
      ensures forall i :: 0 <= i < |watchlist| ==>
        watchlist[i] == if old(watchlist)[i].id == updated.id then updated else old(watchlist)[i]
      ensures UniqueIds(old(watchlist)) ==> UniqueIds(watchlist)
      ensures selectedMovie == old(selectedMovie) && user == old(user)
    {
      forall i | 0 <= i < |watchlist| {
        ReplaceByIdAt(watchlist, updated, i);
      }
      if UniqueIds(watchlist) {
        ReplaceByIdKeepsUniqueIds(watchlist, updated);
      }
      watchlist := ReplaceById(watchlist, updated);
    }

    /** Appends the record without checking whether its id is already present. */
    method AddToWatchlist(movie: Movie)
      modifies this
      ensures watchlist == old(watchlist) + [movie]
      ensures CountId(watchlist, movie.id) == CountId(old(watchlist), movie.id) + 1
      ensures selectedMovie == old(selectedMovie) && user == old(user)
    {
      AppendCountsId(watchlist, movie);
      watchlist := watchlist + [movie];
    }

    /** Opens the detail view on a record; the watchlist is untouched. */
    method SelectMovie(movie: Movie)
      modifies this
      ensures selectedMovie == Some(movie)
      ensures watchlist == old(watchlist) && user == old(user)
    {
      selectedMovie := Some(movie);
    }

    /** Closes the detail view. */
    method CloseDetail()
      modifies this
      ensures selectedMovie == None
      ensures watchlist == old(watchlist) && user == old(user)
    {
      selectedMovie := None;
    }

    /** Stores the profile saved by the profile page. */
    method SetUser(updated: User)
      modifies this
      ensures user == Some(updated)
      ensures watchlist == old(watchlist) && selectedMovie == old(selectedMovie)
    {
      user := Some(updated);
    }
  }

  /**
   * The first render followed by the mount effect, which seeds the sample
   * watchlist and signs in the mocked user.
   */
  method Mount() returns (store: Store)
    ensures fresh(store)
    ensures store.watchlist == SampleMovies() && UniqueIds(store.watchlist)
    ensures store.selectedMovie == None && store.user == Some(SampleUser())
  {
    store := new Store();
    store.SetWatchlist(SampleMovies());
    store.SetUser(SampleUser());
    SampleMoviesUniqueIds();
  }
}

=== FILE: duration.dfy ===
/**
 * The hours-and-minutes display of a number of minutes, shared by the
 * statistics card (`Math.floor(t / 60)`, `t % 60`) and the profile's
 * `formatWatchTime`.
 */
module Duration {

  /**
   * JavaScript's `a % 60` on integers: the remainder takes the sign of the
   * dividend (Dafny's `%` is Euclidean, never negative).
   */
  function JsRemainder60(a: int): (r: int)
    ensures (a - r) % 60 == 0
    ensures a >= 0 ==> 0 <= r < 60
    ensures a < 0 ==> -60 < r <= 0
  {
    if a >= 0 then a % 60 else -((-a) % 60)
  }

  /**
   * `[Math.floor(minutes / 60), minutes % 60]`. Dafny's `/` by a positive
   * divisor already rounds down, as `Math.floor` does.
   */
  function HoursMinutes(minutes: int): (hm: (int, int))
    ensures minutes >= 0 ==> 60 * hm.0 + hm.1 == minutes && 0 <= hm.1 < 60 && hm.0 >= 0
    ensures minutes < 0 ==>
      -60 < hm.1 <= 0 && 60 * hm.0 + hm.1 == minutes - (if minutes % 60 == 0 then 0 else 60)
  {
    (minutes / 60, JsRemainder60(minutes))
  }
}

=== FILE: home.dfy ===
/**
 * The home feed: the title search over the mock results, and the three
 * shelves built from the watchlist — recently watched, currently watching
 * and plan to watch.
 */
module Home {
  import opened Wrappers
  import opened Seqs
  import Text
  import opened App
  import WatchlistManagement

  /**
   * `mockSearchResults`, the titles the search box can find: catalog data
   * only, with none of the user's fields, and ids the sample watchlist does
   * not use.
   */
  function MockSearchResults(): (r: seq<Movie>)
    ensures |r| == 2 && UniqueIds(r)
    ensures forall i :: 0 <= i < |r| ==>
      r[i].status == None && r[i].userRating == None && r[i].progress == None && r[i].dateWatched == None
    ensures forall i, j :: 0 <= i < |r| && 0 <= j < |SampleMovies()| ==> r[i].id != SampleMovies()[j].id
  {
    // Each long literal is the source's string split into `+` pieces; the
    // concatenation is that string, and the split only keeps verification fast.
    [
      Movie(101, "Dune",
        "https://"
        + "images.pexels.com/"
        + "photos/1022927/"
        + "pexels-photo-1022927.jpeg?"
        + "auto=compress&"
        + "cs=tinysrgb&w=300",
        2021, ["Sci-Fi", "Adventure", "Drama"], 155, 8.1,
        "Feature adaptation of "
        + "Frank Herbert's science "
        + "fiction novel about the "
        + "son of a noble family.",
        None, None, None, None, None, None, Film),
      Movie(102, "Stranger Things",
        "https://"
        + "images.pexels.com/"
        + "photos/1105666/"
        + "pexels-photo-1105666.jpeg?"
        + "auto=compress&"
        + "cs=tinysrgb&w=300",
        2016, ["Drama", "Fantasy", "Horror"], 51, 8.7,
        "When a young boy "
        + "disappears, his mother, "
        + "a police chief and his "
        + "friends must confront "
        + "terrifying supernatural "
        + "forces.",
        None, None, None, None, None, None, Series)
    ]
  }

  function TitleMatches(query: string): Movie -> bool {
    (m: Movie) => Text.Includes(Text.Lower(m.title), Text.Lower(query))
  }

  /**
   * `handleSearch`: a query of at most two characters finds nothing; a longer
   * one finds, in their own order, the candidates whose lower-cased title
   * contains the lower-cased query.
   */
  function Search(candidates: seq<Movie>, query: string): (r: seq<Movie>)
    ensures |query| <= 2 ==> r == []
    ensures IsSubsequence(r, candidates)
    ensures |query| > 2 ==> forall m :: m in r <==>
      m in candidates && exists i: nat :: Text.OccursAt(Text.Lower(m.title), Text.Lower(query), i)
  {
    if |query| > 2 then Filter(candidates, TitleMatches(query)) else []
  }

  /** `handleSearch` over the mock results: nothing for short queries, otherwise some of the two. */
  function HandleSearch(query: string): (r: seq<Movie>)
    ensures |query| <= 2 ==> r == []
    ensures |r| <= 2 && IsSubsequence(r, MockSearchResults())
    ensures forall m :: m in r ==> m in MockSearchResults() && TitleMatches(query)(m)
    ensures |query| > 2 ==> forall m :: m in MockSearchResults() && TitleMatches(query)(m) ==> m in r
  {
    Search(MockSearchResults(), query)
  }

  /** The search ignores the case of the query. */
  lemma SearchIgnoresCase(candidates: seq<Movie>, query: string)
    ensures Search(candidates, Text.Lower(query)) == Search(candidates, query)
  {
    Text.LowerIdempotent(query);
    assert TitleMatches(Text.Lower(query)) == TitleMatches(query);
  }

  /** "dun", in any case, finds Dune and nothing else. */
  lemma SearchFindsDune()
    ensures HandleSearch("DUN") == [MockSearchResults()[0]]
  {
    var results := MockSearchResults();
    assert Text.Lower("DUN") == "dun";
    assert Text.Lower(results[0].title) == "dune";
    assert Text.Includes("dune", "dun");
    assert Text.Lower(results[1].title) == "stranger things";
    assert !Text.Includes("stranger things", "dun") by {
      var hay := "stranger things";
      forall i: nat ensures !Text.OccursAt(hay, "dun", i) {
        if i + 3 <= |hay| {
          assert hay[i..i + 3][0] == hay[i] != 'd';
        }
      }
    }
  }

  // ---------------------------------------------------------------------
  // Shelves.

  function Watched(): Movie -> bool {
    (m: Movie) => m.status == Some(Completed) && HasDate(m.dateWatched)
  }

  /** Every record has a watch date and none is newer than the one before it. */
  predicate NewestFirst(r: seq<Movie>) {
    && (forall m :: m in r ==> HasDate(m.dateWatched))
    && (forall i :: 0 < i < |r| ==> Text.AtMost(r[i].dateWatched.value, r[i - 1].dateWatched.value))
  }

  /**
   * `recentlyWatched`: the completed records with a watch date, newest first,
   * the first six (all of them when there are fewer). On records that all
   * have a date the comparator `new Date(b) - new Date(a)` is the
   * watchlist's `dateAdded` comparator.
   */
  function RecentlyWatched(ws: seq<Movie>): (r: seq<Movie>)
    ensures |r| == if |Filter(ws, Watched())| <= 6 then |Filter(ws, Watched())| else 6
    ensures multiset(r) <= multiset(Filter(ws, Watched()))
    ensures forall m :: m in r ==> m in ws && m.status == Some(Completed) && HasDate(m.dateWatched)
    ensures NewestFirst(r)
  {
    var watched := Filter(ws, Watched());
    SortedByDateIsNewestFirst(watched);
    Take(SortBy(watched, WatchlistManagement.Before("dateAdded")), 6)
  }

  /** Sorting dated records with the `dateAdded` comparator puts the newest first. */
  lemma SortedByDateIsNewestFirst(watched: seq<Movie>)
    requires forall m :: m in watched ==> HasDate(m.dateWatched)
    ensures var r := Take(SortBy(watched, WatchlistManagement.Before("dateAdded")), 6);
      && |r| == (if |watched| <= 6 then |watched| else 6)
      && multiset(r) <= multiset(watched)
      && (forall m :: m in r ==> m in watched)
      && NewestFirst(r)
  {
    var newestFirst := WatchlistManagement.Before("dateAdded");
    TakeSortBy(watched, newestFirst, 6);
    var r := Take(SortBy(watched, newestFirst), 6);
    forall i | 0 < i < |r| ensures Text.AtMost(r[i].dateWatched.value, r[i - 1].dateWatched.value) {
      assert newestFirst(r[i - 1], r[i]);
    }
  }

  /** No completed, dated record left off the shelf is newer than one on it. */
  lemma RecentlyWatchedAreNewest(ws: seq<Movie>, m: Movie, k: nat)
    requires m in ws && m.status == Some(Completed) && HasDate(m.dateWatched)
    requires k < |RecentlyWatched(ws)|
    ensures m in RecentlyWatched(ws)
      || Text.AtMost(m.dateWatched.value, RecentlyWatched(ws)[k].dateWatched.value)
  {
    var watched := Filter(ws, Watched());
    var newestFirst := WatchlistManagement.Before("dateAdded");
    forall a, b, c | a in watched && b in watched && c in watched && newestFirst(a, b) && newestFirst(b, c)
      ensures newestFirst(a, c)
    {
      Text.AtMostTransitive(c.dateWatched.value, b.dateWatched.value, a.dateWatched.value);
    }
    TakeSortedIsTop(watched, newestFirst, 6, m, k);
  }

  /** `currentlyWatching`: the records being watched, in watchlist order. */
  function CurrentlyWatching(ws: seq<Movie>): (r: seq<Movie>)
    ensures IsSubsequence(r, ws)
    ensures forall m :: m in r <==> m in ws && m.status == Some(Watching)
    ensures forall m :: multiset(r)[m] == if m.status == Some(Watching) then multiset(ws)[m] else 0
  {
    Filter(ws, HasStatus(Watching))
  }

  /** The shelf shows the same records as the watchlist's "watching" tab. */
  lemma CurrentlyWatchingIsTab(ws: seq<Movie>)
    ensures CurrentlyWatching(ws) == WatchlistManagement.FilteredMovies(ws, "watching", "all")
  {
    WatchlistManagement.FilterByStatus(ws, Watching);
  }

  /** `planToWatch`: the first four records planned, in watchlist order. */
  function PlanToWatchShelf(ws: seq<Movie>): (r: seq<Movie>)
    ensures var planned := Filter(ws, HasStatus(PlanToWatch));
      && |r| == (if |planned| <= 4 then |planned| else 4)
      && r == planned[..|r|]
    ensures forall m :: m in r ==> m in ws && m.status == Some(PlanToWatch)
  {
    Take(Filter(ws, HasStatus(PlanToWatch)), 4)
  }

  /** The "+" on a search result: the record as found, marked plan-to-watch. */
  function AddFromSearch(m: Movie): (r: Movie)
    ensures r.status == Some(PlanToWatch)
    ensures r.(status := m.status) == m
  {
    m.(status := Some(PlanToWatch))
  }

  /** A title added from search shows on the plan-to-watch shelf while it has room. */
  lemma AddedShowsOnShelf(ws: seq<Movie>, m: Movie)
    requires |Filter(ws, HasStatus(PlanToWatch))| < 4
    ensures AddFromSearch(m) in PlanToWatchShelf(ws + [AddFromSearch(m)])
  {
    var added := AddFromSearch(m);
    FilterConcat(ws, [added], HasStatus(PlanToWatch));
    assert Filter([added], HasStatus(PlanToWatch)) == [added] by {
      assert [added][1..] == [];
    }
    var planned := Filter(ws + [added], HasStatus(PlanToWatch));
    assert planned == Filter(ws, HasStatus(PlanToWatch)) + [added];
    assert Take(planned, 4) == planned;
    assert planned[|planned| - 1] == added;
  }
}

=== FILE: moviedetail.dfy ===
/**
 * The detail view's editor: the values it starts from, and `handleSave`,
 * which folds the edited values back into the record.
 */
module MovieDetail {
  import opened Wrappers
  import opened App
  import WatchlistManagement

  /** The editor's state: rating (0 = none), review, notes, status and episode. */
  datatype Editor = Editor(
    userRating: int, userReview: string, userNotes: string, status: Status, currentEpisode: int)

  /**
   * The `useState` initialisers: `userRating || 0`, `userReview || ''`,
   * `userNotes || ''`, `status || 'plan-to-watch'` and
   * `progress?.currentEpisode || 1`.
   */
  function InitialEditor(m: Movie): (e: Editor)
    ensures e.userRating == RatingOrZero(m)
    ensures m.userRating == None ==> e.userRating == 0
    ensures m.userReview.Some? ==> e.userReview == m.userReview.value
    ensures m.userReview == None ==> e.userReview == ""
    ensures m.userNotes.Some? ==> e.userNotes == m.userNotes.value
    ensures m.userNotes == None ==> e.userNotes == ""
    ensures m.status == None ==> e.status == PlanToWatch
    ensures m.status.Some? ==> e.status == m.status.value
    ensures m.progress.Some? && m.progress.value.currentEpisode != 0 ==>
      e.currentEpisode == m.progress.value.currentEpisode
    ensures m.progress.None? || m.progress.value.currentEpisode == 0 ==> e.currentEpisode == 1
    ensures e.currentEpisode != 0
  {
    Editor(
      m.userRating.GetOr(0),
      m.userReview.GetOr(""),
      m.userNotes.GetOr(""),
      m.status.GetOr(PlanToWatch),
      if m.progress.Some? && m.progress.value.currentEpisode != 0 then m.progress.value.currentEpisode else 1)
  }

  /** `movie.progress?.totalEpisodes || 50`. */
  function TotalEpisodes(m: Movie): (n: int)
    ensures n != 0
    ensures m.progress.Some? && m.progress.value.totalEpisodes != 0 ==> n == m.progress.value.totalEpisodes
    ensures m.progress.None? || m.progress.value.totalEpisodes == 0 ==> n == 50
  {
    if m.progress.Some? && m.progress.value.totalEpisodes != 0 then m.progress.value.totalEpisodes else 50
  }

  /** The record differs from `m` at most in the fields the editor owns. */
  predicate SameCatalogEntry(r: Movie, m: Movie) {
    r.(userRating := m.userRating, userReview := m.userReview, userNotes := m.userNotes,
       status := m.status, progress := m.progress, dateWatched := m.dateWatched) == m
  }

  /**
   * `handleSave`. A rating of 0 and an empty review or notes are saved as
   * absent; a series gets `{currentEpisode, totalEpisodes}` with the total
   * defaulting to 50, a film no progress; the watch date is stamped with
   * `today` only when the record becomes completed without one.
   */
  function HandleSave(m: Movie, e: Editor, today: string): (r: Movie)
    ensures SameCatalogEntry(r, m)
    ensures e.userRating == 0 ==> r.userRating == None
    ensures e.userRating != 0 ==> r.userRating == Some(e.userRating)
    ensures IsRated(r) <==> e.userRating != 0
    ensures e.userReview == "" ==> r.userReview == None
    ensures e.userReview != "" ==> r.userReview == Some(e.userReview)
    ensures e.userNotes == "" ==> r.userNotes == None
    ensures e.userNotes != "" ==> r.userNotes == Some(e.userNotes)
    ensures r.status == Some(e.status)
    ensures m.mediaType == Series ==> r.progress == Some(Progress(e.currentEpisode, TotalEpisodes(m)))
    ensures m.mediaType == Film ==> r.progress == None
    ensures e.status == Completed && !HasDate(m.dateWatched) ==> r.dateWatched == Some(today)
    ensures !(e.status == Completed && !HasDate(m.dateWatched)) ==> r.dateWatched == m.dateWatched
  {
    m.(
      userRating := if e.userRating != 0 then Some(e.userRating) else None,
      userReview := if e.userReview != "" then Some(e.userReview) else None,
      userNotes := if e.userNotes != "" then Some(e.userNotes) else None,
      status := Some(e.status),
      progress := if m.mediaType == Series then Some(Progress(e.currentEpisode, TotalEpisodes(m))) else None,
      dateWatched := if e.status == Completed && !HasDate(m.dateWatched) then Some(today) else m.dateWatched)
  }

  /** Saving stamps the watch date exactly as a status change from the watchlist does. */
  lemma SaveDatesLikeStatusChange(m: Movie, e: Editor, today: string)
    ensures HandleSave(m, e, today).dateWatched
      == WatchlistManagement.HandleStatusChange(m, Some(e.status), today).dateWatched
  {
  }

  /** Saving the saved record again with the same editor values changes nothing. */
  lemma SaveIdempotent(m: Movie, e: Editor, today: string, later: string)
    requires today != ""
    ensures var r := HandleSave(m, e, today); HandleSave(r, e, later) == r
  {
  }

  /**
   * Reopening a saved record and saving without edits gives the record back:
   * the editor starts from exactly the values that were saved. An episode of
   * 0 is the exception, since the editor shows it as 1.
   */
  lemma ReopenAndSave(m: Movie, e: Editor, today: string, later: string)
    requires today != ""
    requires e.currentEpisode != 0
    ensures var r := HandleSave(m, e, today); HandleSave(r, InitialEditor(r), later) == r
  {
    var r := HandleSave(m, e, today);
    assert InitialEditor(r) == e.(currentEpisode := InitialEditor(r).currentEpisode);
    if m.mediaType == Series {
      assert InitialEditor(r).currentEpisode == e.currentEpisode;
    }
  }

  // ---------------------------------------------------------------------
  // Saving from the open detail view. The view keeps the `movie` prop it was
  // opened with: the root's `onUpdate` replaces the record in the watchlist
  // but leaves `selectedMovie` as it was.

  /** "Save Changes" in the open view, as written: saved against the record the view was opened with. */
  method SaveInOpenView(store: Store, e: Editor, today: string)
    requires store.selectedMovie.Some?
    modifies store
    ensures store.watchlist == ReplaceById(old(store.watchlist), HandleSave(old(store.selectedMovie).value, e, today))
    ensures store.selectedMovie == old(store.selectedMovie) && store.user == old(store.user)
  {
    store.UpdateMovieInWatchlist(HandleSave(store.selectedMovie.value, e, today));
  }

  /**
   * Completing a record from its open view and saving again in the same view
   * on a later day: both saves test the stale record, which still has no
   * date, so the second one stamps its own day over the first.
   */
  method SaveTwiceRestamps(m: Movie, e: Editor, d1: string, d2: string) returns (first: Movie, second: Movie)
    requires e.status == Completed && !HasDate(m.dateWatched)
    ensures first.dateWatched == Some(d1)
    ensures second.dateWatched == Some(d2)
    ensures second == first.(dateWatched := Some(d2))
  {
    var store := new Store();
    store.SetWatchlist([m]);
    store.SelectMovie(m);
    SaveInOpenView(store, e, d1);
    first := store.watchlist[0];
    SaveInOpenView(store, e, d2);
    second := store.watchlist[0];
  }

  /**
   * "Save Changes" as evidently intended: the open view moves on to the saved
   * record, so a later save tests the date it stamped.
   */
  method SaveInOpenViewRefreshed(store: Store, e: Editor, today: string)
    requires store.selectedMovie.Some?
    modifies store
    ensures var saved := HandleSave(old(store.selectedMovie).value, e, today);
      store.watchlist == ReplaceById(old(store.watchlist), saved) && store.selectedMovie == Some(saved)
    ensures store.user == old(store.user)
  {
    var saved := HandleSave(store.selectedMovie.value, e, today);
    store.UpdateMovieInWatchlist(saved);
    store.SelectMovie(saved);
  }

  /** With the refreshed view, saving twice is saving once: the first stamp stays. */
  method SaveTwiceKeepsStamp(m: Movie, e: Editor, d1: string, d2: string) returns (first: Movie, second: Movie)
    requires d1 != ""
    ensures first == HandleSave(m, e, d1)
    ensures second == first
    ensures e.status == Completed && !HasDate(m.dateWatched) ==> second.dateWatched == Some(d1)
  {
    var store := new Store();
    store.SetWatchlist([m]);
    store.SelectMovie(m);
    SaveInOpenViewRefreshed(store, e, d1);
    first := store.watchlist[0];
    SaveIdempotent(m, e, d1, d2);
    SaveInOpenViewRefreshed(store, e, d2);
    second := store.watchlist[0];
  }
}

=== FILE: scenarios.dfy ===
/**
 * Worked examples on small watchlists: the title sort, the genre histogram,
 * the average rating, adding a search result, and the `dateAdded`
 * comparator's behaviour on a record without a date.
 */
module Scenarios {
  import opened Wrappers
  import opened Seqs
  import opened App
  import WatchlistManagement
  import StatsDashboard
  import Home
  import Text

  /** A film record carrying only what an example needs. */
  function Entry(id: int, title: string, genre: seq<string>, status: Option<Status>,
                 userRating: Option<int>, dateWatched: Option<string>): Movie
  {
    Movie(id, title, "", 2000, genre, 100, 8.0, "", status, userRating, None, None, None, dateWatched, Film)
  }

  /** Sorting by title puts "Breaking Bad", "Inception", "The Dark Knight" in that order. */
  lemma TitleSortExample()
    ensures var ws := [Entry(1, "The Dark Knight", [], None, None, None),
                       Entry(2, "Inception", [], None, None, None),
                       Entry(3, "Breaking Bad", [], None, None, None)];
      WatchlistManagement.SortedMovies(ws, "title") == [ws[2], ws[1], ws[0]]
  {
    var ws := [Entry(1, "The Dark Knight", [], None, None, None),
               Entry(2, "Inception", [], None, None, None),
               Entry(3, "Breaking Bad", [], None, None, None)];
    var before := WatchlistManagement.Before("title");
    assert !before(ws[0], ws[1]) by {
      assert Text.Compare(ws[0].title, ws[1].title) == 1;
    }
    assert !before(ws[0], ws[2]) by {
      assert Text.Compare(ws[0].title, ws[2].title) == 1;
    }
    assert !before(ws[1], ws[2]) by {
      assert Text.Compare(ws[1].title, ws[2].title) == 1;
    }
    SortReversesThree(ws[0], ws[1], ws[2], before);
    assert ws == [ws[0], ws[1], ws[2]];
  }

  /** Three elements of which none may precede a later one come out reversed. */
  lemma SortReversesThree<T>(x: T, y: T, z: T, before: (T, T) -> bool)
    requires !before(x, y) && !before(x, z) && !before(y, z)
    ensures SortBy([x, y, z], before) == [z, y, x]
  {
    SortPairReversed(y, z, before);
    InsertAfterTwo(x, z, y, before);
    assert [x, y, z][1..] == [y, z];
  }

  lemma SortPairReversed<T>(y: T, z: T, before: (T, T) -> bool)
    requires !before(y, z)
    ensures SortBy([y, z], before) == [z, y]
  {
    assert [y, z][1..] == [z];
    assert SortBy([z], before) == [z];
  }

  lemma InsertAfterTwo<T>(x: T, z: T, y: T, before: (T, T) -> bool)
    requires !before(x, z) && !before(x, y)
    ensures Insert(x, [z, y], before) == [z, y, x]
  {
    assert [z, y][1..] == [y];
    assert Insert(x, [y], before) == [y, x];
  }

  /** Two completed records tagged Action, Drama and Drama give Action 1 and Drama 2. */
  lemma GenreHistogramExample()
    ensures var completed := [Entry(1, "A", ["Action", "Drama"], Some(Completed), None, None),
                              Entry(2, "B", ["Drama"], Some(Completed), None, None)];
      && Dedup(Genres(completed)) == ["Action", "Drama"]
      && Occurrences(Genres(completed), "Action") == 1
      && Occurrences(Genres(completed), "Drama") == 2
  {
    var completed := [Entry(1, "A", ["Action", "Drama"], Some(Completed), None, None),
                      Entry(2, "B", ["Drama"], Some(Completed), None, None)];
    assert completed[..1] == [completed[0]];
    assert Genres(completed[..1]) == ["Action", "Drama"];
    var tags := Genres(completed);
    assert tags == ["Action", "Drama", "Drama"];
    assert tags[..2] == ["Action", "Drama"] && tags[..2][..1] == ["Action"];
    assert ["Action"][..0] == [];
    assert Dedup(["Action"]) == ["Action"];
    assert Dedup(["Action", "Drama"]) == ["Action", "Drama"];
  }

  /** Completed records rated 8 and 10, and an unrated one between them. */
  function RatingExample(): seq<Movie> {
    [Entry(1, "A", [], Some(Completed), Some(8), None),
     Entry(2, "B", [], Some(Completed), None, None),
     Entry(3, "C", [], Some(Completed), Some(10), None)]
  }

  /** The ratings 8 and 10 average to 9; the unrated record does not count. */
  lemma AverageRatingExample()
    ensures StatsDashboard.AverageRating(RatingExample()) == 9.0
  {
    var ws := RatingExample();
    RatedOfExample();
    var rated := StatsDashboard.RatedCompleted(ws);
    assert StatsDashboard.RatingSum(rated) == 18 by {
      assert rated[1..] == [ws[2]] && [ws[2]][1..] == [];
    }
    assert StatsDashboard.Mean(18, 2) == 9.0;
  }

  lemma RatedOfExample()
    ensures var ws := RatingExample(); StatsDashboard.RatedCompleted(ws) == [ws[0], ws[2]]
  {
    var ws := RatingExample();
    assert StatsDashboard.CompletedMovies(ws) == ws by {
      FilterAll(ws, HasStatus(Completed));
    }
    RatedOfExampleFilter();
  }

  lemma RatedOfExampleFilter()
    ensures var ws := RatingExample(); Filter(ws, IsRated) == [ws[0], ws[2]]
  {
    var ws := RatingExample();
    assert Filter(ws[1..], IsRated) == [ws[2]] by {
      assert ws[1..][1..] == [ws[2]];
      assert Filter([ws[2]], IsRated) == [ws[2]] by {
        assert [ws[2]][1..] == [];
      }
    }
  }

  /** With nothing rated the average is 0. */
  lemma AverageRatingEmpty(ws: seq<Movie>)
    requires forall i :: 0 <= i < |ws| ==> !IsRated(ws[i])
    ensures StatsDashboard.AverageRating(ws) == 0.0
  {
    var completed := StatsDashboard.CompletedMovies(ws);
    forall m | m in completed ensures !IsRated(m) {
      assert m in ws;
    }
    FilterNone(completed, IsRated);
  }

  /** A search result added to the watchlist shows under the manager's plan-to-watch tab. */
  lemma AddedShowsInPlanTab(ws: seq<Movie>, m: Movie)
    ensures Home.AddFromSearch(m) in WatchlistManagement.FilteredMovies(ws + [Home.AddFromSearch(m)], "plan-to-watch", "all")
  {
    var added := Home.AddFromSearch(m);
    assert added in ws + [added];
  }

  /**
   * A record without a date ties with everything under `dateAdded`, so the
   * comparator is not transitive: two dated records in the wrong order are
   * both "equal" to an undated one.
   */
  lemma DateAddedNotTransitive()
    ensures var older := Entry(1, "A", [], Some(Completed), None, Some("2023-01-01"));
      var undated := Entry(2, "B", [], Some(Completed), None, None);
      var newer := Entry(3, "C", [], Some(Completed), None, Some("2024-01-01"));
      var before := WatchlistManagement.Before("dateAdded");
      before(older, undated) && before(undated, newer) && !before(older, newer)
  {
    assert "2024-01-01"[3] > "2023-01-01"[3];
    assert "2024-01-01"[..3] == "2023-01-01"[..3];
  }
}

=== FILE: seqs.dfy ===
/**
 * Sequence operations the components build their lists from: JavaScript's
 * `filter`, `slice(0, n)`, `new Set(...)` de-duplication, and the stable
 * `Array.prototype.sort` driven by a comparator.
 */
module Seqs {

  /** `r` is `s` with some elements left out, the rest in their original order. */
  ghost predicate IsSubsequence<T>(r: seq<T>, s: seq<T>)
    decreases |s|
  {
    r == [] || (s != [] && ((r[0] == s[0] && IsSubsequence(r[1..], s[1..])) || IsSubsequence(r, s[1..])))
  }

  /** The elements of `s` satisfying `p`, in order (`s.filter(p)`). */
  function Filter<T(!new)>(s: seq<T>, p: T -> bool): (r: seq<T>)
    ensures |r| <= |s|
    ensures forall x :: x in r <==> x in s && p(x)
    ensures IsSubsequence(r, s)
    ensures forall x :: multiset(r)[x] == if p(x) then multiset(s)[x] else 0
  {
    if s == [] then []
    else
      assert s == [s[0]] + s[1..];
      if p(s[0]) then [s[0]] + Filter(s[1..], p)
      else Filter(s[1..], p)
  }

  /** Filtering distributes over concatenation. */
  lemma {:induction false} FilterConcat<T(!new)>(a: seq<T>, b: seq<T>, p: T -> bool)
    ensures Filter(a + b, p) == Filter(a, p) + Filter(b, p)
  {
    if a == [] {
      assert a + b == b;
    } else {
      assert (a + b)[0] == a[0];
      assert (a + b)[1..] == a[1..] + b;
      FilterConcat(a[1..], b, p);
    }
  }

  /** A filter that every element passes keeps the whole sequence. */
  lemma {:induction false} FilterAll<T(!new)>(s: seq<T>, p: T -> bool)
    requires forall x :: x in s ==> p(x)
    ensures Filter(s, p) == s
  {
    if s != [] {
      assert s[0] in s;
      assert forall x :: x in s[1..] ==> x in s;
      FilterAll(s[1..], p);
    }
  }

  /** A filter that no element passes keeps nothing. */
  lemma {:induction false} FilterNone<T(!new)>(s: seq<T>, p: T -> bool)
    requires forall x :: x in s ==> !p(x)
    ensures Filter(s, p) == []
  {
    if s != [] {
      assert s[0] in s;
      assert forall x :: x in s[1..] ==> x in s;
      FilterNone(s[1..], p);
    }
  }

  /** Applying the same filter twice is the same as applying it once. */
  lemma {:induction false} FilterIdempotent<T(!new)>(s: seq<T>, p: T -> bool)
    ensures Filter(Filter(s, p), p) == Filter(s, p)
  {
    FilterAll(Filter(s, p), p);
  }

  /** Two filters in a row are one filter by both tests. */
  lemma {:induction false} FilterFilter<T(!new)>(s: seq<T>, p: T -> bool, q: T -> bool, both: T -> bool)
    requires forall x :: both(x) == (p(x) && q(x))
    ensures Filter(Filter(s, p), q) == Filter(s, both)
  {
    if s != [] {
      FilterFilter(s[1..], p, q, both);
      if p(s[0]) {
        assert ([s[0]] + Filter(s[1..], p))[1..] == Filter(s[1..], p);
      }
    }
  }

  /** The first `n` elements of `s`, or all of `s` when it is shorter (`s.slice(0, n)`). */
  function Take<T>(s: seq<T>, n: nat): (r: seq<T>)
    ensures |r| == if |s| <= n then |s| else n
    ensures r == s[..|r|]
    ensures forall x :: x in r ==> x in s
    ensures multiset(r) <= multiset(s)
  {
    if |s| <= n then s
    else
      assert s == s[..n] + s[n..];
      s[..n]
  }

  /** How often `x` occurs in `s`. */
  function Occurrences<T(==)>(s: seq<T>, x: T): (n: nat)
    ensures n > 0 <==> x in s
  {
    if s == [] then 0
    else Occurrences(s[..|s| - 1], x) + (if s[|s| - 1] == x then 1 else 0)
  }

  /** Occurrences agrees with the multiset of the sequence. */
  lemma {:induction false} OccurrencesIsMultiplicity<T>(s: seq<T>, x: T)
    ensures Occurrences(s, x) == multiset(s)[x]
  {
    if s != [] {
      var init := s[..|s| - 1];
      assert s == init + [s[|s| - 1]];
      OccurrencesIsMultiplicity(init, x);
    }
  }

  lemma OccurrencesSnoc<T>(s: seq<T>, y: T, x: T)
    ensures Occurrences(s + [y], x) == Occurrences(s, x) + (if y == x then 1 else 0)
  {
    assert (s + [y])[..|s + [y]| - 1] == s;
  }

  predicate NoDuplicates<T(==)>(s: seq<T>) {
    forall i, j :: 0 <= i < j < |s| ==> s[i] != s[j]
  }

  /**
   * The distinct elements of `s` in order of first occurrence
   * (`Array.from(new Set(s))`).
   */
  function Dedup<T(==,!new)>(s: seq<T>): (r: seq<T>)
    ensures NoDuplicates(r)
    ensures forall x :: x in r <==> x in s
  {
    if s == [] then []
    else
      var d := Dedup(s[..|s| - 1]);
      var last := s[|s| - 1];
      assert s == s[..|s| - 1] + [last];
      if last in d then d else d + [last]
  }

  /** Whenever `x` comes before `y` in `r`, `x` occurs in `s` before any occurrence of `y`. */
  predicate FirstOccurrenceOrder<T(==)>(r: seq<T>, s: seq<T>) {
    forall i, j :: 0 <= i < j < |r| ==> exists k :: 0 <= k < |s| && s[k] == r[i] && r[j] !in s[..k]
  }

  /**
   * `Dedup` lists the elements in order of first occurrence: an element
   * placed before another occurs in `s` before any occurrence of the other.
   */
  lemma {:induction false} DedupFirstOccurrence<T(!new)>(s: seq<T>)
    ensures FirstOccurrenceOrder(Dedup(s), s)
  {
    if s != [] {
      var init := s[..|s| - 1];
      var last := s[|s| - 1];
      var d := Dedup(init);
      DedupFirstOccurrence(init);
      assert FirstOccurrenceOrder(d, init);
      assert s == init + [last];
      var r := Dedup(s);
      assert r == if last in d then d else d + [last];
      forall i, j | 0 <= i < j < |r|
        ensures exists k :: 0 <= k < |s| && s[k] == r[i] && r[j] !in s[..k]
      {
        assert d[i] in d && r[i] == d[i];
        if j < |d| {
          assert 0 <= i < j < |d| && r[j] == d[j];
          var k :| 0 <= k < |init| && init[k] == d[i] && d[j] !in init[..k];
          assert s[k] == r[i] && s[..k] == init[..k];
        } else {
          var k :| 0 <= k < |init| && init[k] == d[i];
          assert s[k] == r[i] && s[..k] == init[..k];
        }
      }
    }
  }

  /** Extending `s` by one element extends its de-duplication by that element when it is new. */
  lemma DedupSnoc<T(!new)>(s: seq<T>, x: T)
    ensures Dedup(s + [x]) == if x in s then Dedup(s) else Dedup(s) + [x]
  {
    assert (s + [x])[..|s + [x]| - 1] == s;
  }

  /** The concatenation of a sequence of sequences (`flat()`). */
  function Concat<T>(ss: seq<seq<T>>): (r: seq<T>)
    ensures ss == [] ==> r == []
  {
    if ss == [] then [] else Concat(ss[..|ss| - 1]) + ss[|ss| - 1]
  }

  lemma ConcatSnoc<T>(ss: seq<seq<T>>, s: seq<T>)
    ensures Concat(ss + [s]) == Concat(ss) + s
  {
    assert (ss + [s])[..|ss + [s]| - 1] == ss;
  }

  // ---------------------------------------------------------------------
  // Stable sorting.  A comparator `cmp` of JavaScript's `sort` is modelled by
  // `before(a, b) == (cmp(a, b) <= 0)`: `a` may stay in front of `b`.

  ghost predicate Total<T(!new)>(before: (T, T) -> bool) {
    forall a, b :: before(a, b) || before(b, a)
  }

  ghost predicate Transitive<T(!new)>(before: (T, T) -> bool) {
    forall a, b, c :: before(a, b) && before(b, c) ==> before(a, c)
  }

  /** Transitivity among the elements of `s` only. */
  ghost predicate TransitiveOn<T>(s: seq<T>, before: (T, T) -> bool) {
    forall a, b, c :: a in s && b in s && c in s && before(a, b) && before(b, c) ==> before(a, c)
  }

  /** Every element may stand in front of its successor. */
  predicate SortedBy<T>(s: seq<T>, before: (T, T) -> bool) {
    forall i :: 0 < i < |s| ==> before(s[i - 1], s[i])
  }

  /** Inserts `x` in front of the first element it may precede. */
  function Insert<T>(x: T, s: seq<T>, before: (T, T) -> bool): (r: seq<T>)
    ensures |r| == |s| + 1
    ensures multiset(r) == multiset(s) + multiset{x}
    ensures r[0] == x || (s != [] && r[0] == s[0])
  {
    if s == [] || before(x, s[0]) then [x] + s
    else
      assert s == [s[0]] + s[1..];
      [s[0]] + Insert(x, s[1..], before)
  }

  /**
   * The stable sort of `s`: each element, taken from the back, is inserted in
   * front of every element it may precede, so equal elements keep their order.
   */
  function SortBy<T>(s: seq<T>, before: (T, T) -> bool): (r: seq<T>)
    ensures |r| == |s|
    ensures multiset(r) == multiset(s)
  {
    if s == [] then []
    else
      assert s == [s[0]] + s[1..];
      Insert(s[0], SortBy(s[1..], before), before)
  }

  /** The sort returns the same elements. */
  lemma SortByMembers<T>(s: seq<T>, before: (T, T) -> bool)
    ensures forall x :: x in SortBy(s, before) <==> x in s
  {
    var r := SortBy(s, before);
    forall x ensures x in r <==> x in s {
      assert x in r <==> x in multiset(r);
      assert x in s <==> x in multiset(s);
    }
  }

  lemma {:induction false} InsertSorted<T(!new)>(x: T, s: seq<T>, before: (T, T) -> bool)
    requires Total(before)
    requires SortedBy(s, before)
    ensures SortedBy(Insert(x, s, before), before)
  {
    if s == [] || before(x, s[0]) {
    } else {
      var t := Insert(x, s[1..], before);
      InsertSorted(x, s[1..], before);
      assert before(s[0], x);
      assert [s[0]] + t == Insert(x, s, before);
    }
  }

  /** With a total comparator the result is sorted. */
  lemma {:induction false} SortBySorted<T(!new)>(s: seq<T>, before: (T, T) -> bool)
    requires Total(before)
    ensures SortedBy(SortBy(s, before), before)
  {
    if s != [] {
      SortBySorted(s[1..], before);
      InsertSorted(s[0], SortBy(s[1..], before), before);
    }
  }

  /** With a transitive comparator, sorted means every element may precede every later one. */
  lemma {:induction false} SortedPairwise<T>(s: seq<T>, before: (T, T) -> bool, i: nat, j: nat)
    requires TransitiveOn(s, before)
    requires SortedBy(s, before)
    requires i < j < |s|
    ensures before(s[i], s[j])
    decreases j - i
  {
    if j > i + 1 {
      SortedPairwise(s, before, i, j - 1);
      assert s[i] in s && s[j - 1] in s && s[j] in s;
    }
  }

  lemma {:induction false} InsertStable<T(!new)>(x: T, t: seq<T>, before: (T, T) -> bool, p: T -> bool)
    requires forall a, b :: p(a) && p(b) ==> before(a, b)
    ensures Filter(Insert(x, t, before), p) == Filter([x] + t, p)
  {
    if t == [] || before(x, t[0]) {
    } else {
      InsertStable(x, t[1..], before, p);
      assert ([t[0]] + Insert(x, t[1..], before))[1..] == Insert(x, t[1..], before);
      assert ([x] + t[1..])[1..] == t[1..];
      assert ([x] + t)[1..] == t;
      assert t == [t[0]] + t[1..];
      if p(x) {
        assert !p(t[0]);
      }
    }
  }

  /**
   * Stability: for a class of elements the comparator treats as equal, the
   * sort keeps them in their input order.
   */
  lemma {:induction false} SortByStable<T(!new)>(s: seq<T>, before: (T, T) -> bool, p: T -> bool)
    requires forall a, b :: p(a) && p(b) ==> before(a, b)
    ensures Filter(SortBy(s, before), p) == Filter(s, p)
  {
    if s != [] {
      SortByStable(s[1..], before, p);
      InsertStable(s[0], SortBy(s[1..], before), before, p);
      assert ([s[0]] + SortBy(s[1..], before))[1..] == SortBy(s[1..], before);
    }
  }

  /** A comparator that finds every pair equal leaves the order as it was. */
  lemma SortByKeepsOrder<T(!new)>(s: seq<T>, before: (T, T) -> bool)
    requires forall a, b :: before(a, b)
    ensures SortBy(s, before) == s
  {
    var all := (x: T) => true;
    SortByStable(s, before, all);
    FilterAll(s, all);
    FilterAll(SortBy(s, before), all);
  }

  /**
   * The first `n` of a sort: as many elements as `s` has, up to `n`, drawn
   * from `s` without adding copies, in sorted order.
   */
  lemma TakeSortBy<T(!new)>(s: seq<T>, before: (T, T) -> bool, n: nat)
    requires Total(before)
    ensures var r := Take(SortBy(s, before), n);
      && |r| == (if |s| <= n then |s| else n)
      && multiset(r) <= multiset(s)
      && (forall x :: x in r ==> x in s)
      && SortedBy(r, before)
  {
    var sorted := SortBy(s, before);
    SortBySorted(s, before);
    var r := Take(sorted, n);
    forall x | x in r ensures x in s {
      assert x in multiset(s);
    }
    forall i | 0 < i < |r| ensures before(r[i - 1], r[i]) {
      assert r[i - 1] == sorted[i - 1] && r[i] == sorted[i];
    }
  }

  /**
   * Taking the first `n` of a sorted sequence takes its best elements: an
   * element left out may not precede any element kept.
   */
  lemma TakeSortedIsTop<T(!new)>(s: seq<T>, before: (T, T) -> bool, n: nat, x: T, k: nat)
    requires Total(before) && TransitiveOn(s, before)
    requires x in s
    requires k < |Take(SortBy(s, before), n)|
    ensures x in Take(SortBy(s, before), n) || before(SortBy(s, before)[k], x)
  {
    var sorted := SortBy(s, before);
    SortBySorted(s, before);
    SortByMembers(s, before);
    assert TransitiveOn(sorted, before);
    var p :| 0 <= p < |sorted| && sorted[p] == x;
    if p < n {
      assert Take(sorted, n)[p] == x;
    } else {
      SortedPairwise(sorted, before, k, p);
    }
  }
}

=== FILE: stats.dfy ===
/**
 * The statistics view: everything is computed over the completed records —
 * total runtime, the genre histogram and its top five, the average user
 * rating and the five best-rated titles — plus the heatmap's chunking of a
 * day list into weeks and its colour buckets.
 */
module StatsDashboard {
  import opened Wrappers
  import opened Seqs
  import opened App
  import WatchlistManagement
  import Duration

  /** `completedMovies`: the completed records, in watchlist order. */
  function CompletedMovies(ws: seq<Movie>): (r: seq<Movie>)
    ensures IsSubsequence(r, ws)
    ensures forall m :: m in r <==> m in ws && m.status == Some(Completed)
    ensures forall m :: multiset(r)[m] == if m.status == Some(Completed) then multiset(ws)[m] else 0
  {
    Filter(ws, HasStatus(Completed))
  }

  /** The "Movies Completed" card agrees with the watchlist's "completed" tab. */
  lemma CompletedAgreesWithTab(ws: seq<Movie>)
    ensures |CompletedMovies(ws)| == WatchlistManagement.GetStatusCounts(ws).completed
  {
  }

  // ---------------------------------------------------------------------
  // Watch time.

  function RuntimeSum(ms: seq<Movie>): int {
    if ms == [] then 0 else ms[0].runtime + RuntimeSum(ms[1..])
  }

  lemma {:induction false} RuntimeSumConcat(a: seq<Movie>, b: seq<Movie>)
    ensures RuntimeSum(a + b) == RuntimeSum(a) + RuntimeSum(b)
  {
    if a == [] {
      assert a + b == b;
    } else {
      assert (a + b)[1..] == a[1..] + b;
      RuntimeSumConcat(a[1..], b);
    }
  }

  lemma {:induction false} RuntimeSumNonNegative(ms: seq<Movie>)
    requires forall i :: 0 <= i < |ms| ==> ms[i].runtime >= 0
    ensures RuntimeSum(ms) >= 0
  {
    if ms != [] {
      assert forall i :: 0 <= i < |ms[1..]| ==> ms[1..][i] == ms[i + 1];
      RuntimeSumNonNegative(ms[1..]);
    }
  }

  /**
   * `totalWatchTime`: the runtimes of the completed records, added up; 0 when
   * nothing is completed, every runtime when everything is.
   */
  function TotalWatchTime(ws: seq<Movie>): (t: int)
    ensures (forall i :: 0 <= i < |ws| ==> ws[i].status != Some(Completed)) ==> t == 0
    ensures (forall i :: 0 <= i < |ws| ==> ws[i].status == Some(Completed)) ==> t == RuntimeSum(ws)
  {
    CompletedNoneOrAll(ws);
    RuntimeSum(CompletedMovies(ws))
  }

  /** With nothing completed the list is empty; with everything completed it is the watchlist. */
  lemma CompletedNoneOrAll(ws: seq<Movie>)
    ensures (forall i :: 0 <= i < |ws| ==> ws[i].status != Some(Completed)) ==> CompletedMovies(ws) == []
    ensures (forall i :: 0 <= i < |ws| ==> ws[i].status == Some(Completed)) ==> CompletedMovies(ws) == ws
  {
    if forall i :: 0 <= i < |ws| ==> ws[i].status != Some(Completed) {
      FilterNone(ws, HasStatus(Completed));
    }
    if forall i :: 0 <= i < |ws| ==> ws[i].status == Some(Completed) {
      FilterAll(ws, HasStatus(Completed));
    }
  }

  /** Adding a record adds its runtime to the total exactly when it is completed. */
  lemma TotalWatchTimeAppend(ws: seq<Movie>, m: Movie)
    ensures TotalWatchTime(ws + [m]) ==
      TotalWatchTime(ws) + (if m.status == Some(Completed) then m.runtime else 0)
  {
    FilterConcat(ws, [m], HasStatus(Completed));
    RuntimeSumConcat(CompletedMovies(ws), Filter([m], HasStatus(Completed)));
  }

  lemma TotalWatchTimeNonNegative(ws: seq<Movie>)
    ensures (forall i :: 0 <= i < |ws| ==> ws[i].runtime >= 0) ==> TotalWatchTime(ws) >= 0
  {
    var completed := CompletedMovies(ws);
    if forall i :: 0 <= i < |ws| ==> ws[i].runtime >= 0 {
      forall i | 0 <= i < |completed| ensures completed[i].runtime >= 0 {
        assert completed[i] in ws;
      }
      RuntimeSumNonNegative(completed);
    }
  }

  /**
   * The "Total Watch Time" card, `Math.floor(t / 60)` hours and `t % 60`
   * minutes; with non-negative runtimes it shows exactly the total.
   */
  function WatchTimeCard(ws: seq<Movie>): (hm: (int, int))
    ensures (forall i :: 0 <= i < |ws| ==> ws[i].runtime >= 0) ==>
      60 * hm.0 + hm.1 == TotalWatchTime(ws) && 0 <= hm.1 < 60 && hm.0 >= 0
  {
    TotalWatchTimeNonNegative(ws);
    Duration.HoursMinutes(TotalWatchTime(ws))
  }

  // ---------------------------------------------------------------------
  // Genre histogram.

  /** `stats` and `keys` hold the histogram of the genre tags `s`, keys in order of first appearance. */
  ghost predicate Tallies(stats: map<string, int>, keys: seq<string>, s: seq<string>) {
    && keys == Dedup(s)
    && (forall g :: g in stats <==> g in keys)
    && (forall g :: g in stats ==> stats[g] == Occurrences(s, g))
  }

  /** One `acc[genre] = (acc[genre] || 0) + 1` step extends the histogram by one tag. */
  lemma TalliesSnoc(stats: map<string, int>, keys: seq<string>, s: seq<string>, genre: string)
    requires Tallies(stats, keys, s)
    ensures Tallies(
      stats[genre := (if genre in stats then stats[genre] else 0) + 1],
      if genre in keys then keys else keys + [genre],
      s + [genre])
  {
    DedupSnoc(s, genre);
    forall g ensures Occurrences(s + [genre], g) == Occurrences(s, g) + (if genre == g then 1 else 0) {
      OccurrencesSnoc(s, genre, g);
    }
  }

  lemma PrefixStep(seen: seq<string>, genres: seq<string>, j: nat)
    requires j <= |genres|
    ensures j == 0 ==> seen + genres[..j] == seen
    ensures j > 0 ==> seen + genres[..j] == (seen + genres[..j - 1]) + [genres[j - 1]]
    ensures j == |genres| ==> seen + genres[..j] == seen + genres
  {
    if j > 0 {
      assert genres[..j] == genres[..j - 1] + [genres[j - 1]];
    }
  }

  /** `acc[genre] = (acc[genre] || 0) + 1`, remembering the order keys were first inserted in. */
  method Bump(stats0: map<string, int>, keys0: seq<string>, ghost seen: seq<string>, genre: string)
    returns (stats: map<string, int>, keys: seq<string>)
    requires Tallies(stats0, keys0, seen)
    ensures Tallies(stats, keys, seen + [genre])
  {
    TalliesSnoc(stats0, keys0, seen, genre);
    var count := if genre in stats0 then stats0[genre] else 0;
    stats := stats0[genre := count + 1];
    keys := if genre in keys0 then keys0 else keys0 + [genre];
  }

  /** `movie.genre.forEach(genre => { acc[genre] = (acc[genre] || 0) + 1; })`. */
  method CountGenres(stats0: map<string, int>, keys0: seq<string>, ghost seen: seq<string>, genres: seq<string>)
    returns (stats: map<string, int>, keys: seq<string>)
    requires Tallies(stats0, keys0, seen)
    ensures Tallies(stats, keys, seen + genres)
  {
    stats, keys := stats0, keys0;
    var j := 0;
    PrefixStep(seen, genres, 0);
    while j < |genres|
      invariant 0 <= j <= |genres|
      invariant Tallies(stats, keys, seen + genres[..j])
    {
      stats, keys := Bump(stats, keys, seen + genres[..j], genres[j]);
      PrefixStep(seen, genres, j + 1);
      j := j + 1;
    }
    PrefixStep(seen, genres, j);
  }

  /**
   * `genreStats`: one pass over `completedMovies` and their genres,
   * bumping `acc[genre]`. `keys` is the order the genres were first
   * inserted in, which is the order `Object.keys` and `Object.entries` give.
   */
  method GenreStats(completed: seq<Movie>) returns (stats: map<string, int>, keys: seq<string>)
    ensures keys == Dedup(Genres(completed))
    ensures forall g :: g in stats <==> g in keys
    ensures forall g :: g in stats ==> stats[g] == Occurrences(Genres(completed), g)
  {
    stats := map[];
    keys := [];
    var i := 0;
    while i < |completed|
      invariant 0 <= i <= |completed|
      invariant Tallies(stats, keys, Genres(completed[..i]))
    {
      stats, keys := CountGenres(stats, keys, Genres(completed[..i]), completed[i].genre);
      assert completed[..i + 1] == completed[..i] + [completed[i]];
      GenresSnoc(completed[..i], completed[i]);
      i := i + 1;
    }
    assert completed[..i] == completed;
  }

  function SumCounts(stats: map<string, int>, keys: seq<string>): int
    requires forall g :: g in keys ==> g in stats
  {
    if keys == [] then 0 else SumCounts(stats, keys[..|keys| - 1]) + stats[keys[|keys| - 1]]
  }

  /** Every occurrence of a genre is counted once: the histogram adds up to the number of genre tags. */
  lemma GenreCountsAddUp(ws: seq<Movie>, stats: map<string, int>, keys: seq<string>)
    requires keys == Dedup(Genres(CompletedMovies(ws)))
    requires forall g :: g in stats <==> g in keys
    requires forall g :: g in stats ==> stats[g] == Occurrences(Genres(CompletedMovies(ws)), g)
    ensures SumCounts(stats, keys) == |Genres(CompletedMovies(ws))|
  {
    DedupCountsAddUp(Genres(CompletedMovies(ws)), stats);
  }

  lemma {:induction false} DedupCountsAddUp(s: seq<string>, stats: map<string, int>)
    requires forall g :: g in Dedup(s) ==> g in stats && stats[g] == Occurrences(s, g)
    ensures SumCounts(stats, Dedup(s)) == |s|
  {
    if s != [] {
      var init := s[..|s| - 1];
      var last := s[|s| - 1];
      assert s == init + [last];
      var d := Dedup(init);
      var counts := map g | g in d :: Occurrences(init, g);
      DedupCountsAddUp(init, counts);
      forall g | g in d ensures g in stats && stats[g] == counts[g] + (if g == last then 1 else 0) {
        OccurrencesSnoc(init, last, g);
      }
      if last in d {
        SumCountsBump(counts, stats, d, last);
      } else {
        OccurrencesSnoc(init, last, last);
        assert Occurrences(init, last) == 0;
        SumCountsSame(counts, stats, d);
        assert Dedup(s)[..|Dedup(s)| - 1] == d;
      }
    }
  }

  lemma {:induction false} SumCountsSame(a: map<string, int>, b: map<string, int>, keys: seq<string>)
    requires forall g :: g in keys ==> g in a && g in b && a[g] == b[g]
    ensures SumCounts(a, keys) == SumCounts(b, keys)
  {
    if keys != [] {
      SumCountsSame(a, b, keys[..|keys| - 1]);
    }
  }

  lemma {:induction false} SumCountsBump(a: map<string, int>, b: map<string, int>, keys: seq<string>, x: string)
    requires NoDuplicates(keys) && x in keys
    requires forall g :: g in keys ==> g in a && g in b && b[g] == a[g] + (if g == x then 1 else 0)
    ensures SumCounts(b, keys) == SumCounts(a, keys) + 1
  {
    var init := keys[..|keys| - 1];
    var last := keys[|keys| - 1];
    if last == x {
      assert x !in init;
      SumCountsSame(a, b, init);
    } else {
      assert x in init;
      SumCountsBump(a, b, init, x);
    }
  }

  /** `Object.entries(genreStats)`: the (genre, count) pairs in key order. */
  function Entries(stats: map<string, int>, keys: seq<string>): (r: seq<(string, int)>)
    requires forall g :: g in keys ==> g in stats
    ensures |r| == |keys|
    ensures forall i :: 0 <= i < |r| ==> r[i].0 == keys[i] && r[i].1 == stats[keys[i]]
  {
    seq(|keys|, i requires 0 <= i < |keys| => (keys[i], stats[keys[i]]))
  }

  /** The comparator `([, a], [, b]) => b - a`: larger counts first. */
  function MoreFrequent(): ((string, int), (string, int)) -> bool {
    (a: (string, int), b: (string, int)) => b.1 - a.1 <= 0
  }

  /**
   * `topGenres`: the entries sorted by descending count, then the first five
   * (all of them when there are fewer).
   */
  function TopGenres(entries: seq<(string, int)>): (r: seq<(string, int)>)
    ensures |r| == if |entries| <= 5 then |entries| else 5
    ensures multiset(r) <= multiset(entries)
    ensures forall e :: e in r ==> e in entries
    ensures forall i :: 0 < i < |r| ==> r[i - 1].1 >= r[i].1
  {
    TakeSortBy(entries, MoreFrequent(), 5);
    var r := Take(SortBy(entries, MoreFrequent()), 5);
    assert forall i :: 0 < i < |r| ==> MoreFrequent()(r[i - 1], r[i]);
    r
  }

  /** No genre left out of the top five is more frequent than any genre in it. */
  lemma TopGenresAreTop(entries: seq<(string, int)>, e: (string, int), k: nat)
    requires e in entries
    requires k < |TopGenres(entries)|
    ensures e in TopGenres(entries) || e.1 <= TopGenres(entries)[k].1
  {
    TakeSortedIsTop(entries, MoreFrequent(), 5, e, k);
  }

  function HasCount(c: int): ((string, int)) -> bool {
    (e: (string, int)) => e.1 == c
  }

  /** Genres with the same count keep the order they were first met in. */
  lemma TopGenresTiesInOrder(entries: seq<(string, int)>, c: int)
    ensures Filter(SortBy(entries, MoreFrequent()), HasCount(c)) == Filter(entries, HasCount(c))
  {
    SortByStable(entries, MoreFrequent(), HasCount(c));
  }

  // ---------------------------------------------------------------------
  // Ratings.

  /** `completed.reduce((sum, m) => sum + (m.userRating || 0), 0)`. */
  function RatingSum(ms: seq<Movie>): (total: int)
    ensures (forall i :: 0 <= i < |ms| ==> !IsRated(ms[i])) ==> total == 0
    ensures (forall i :: 0 <= i < |ms| ==> RatingOrZero(ms[i]) >= 0) ==> total >= 0
  {
    if ms == [] then 0
    else
      assert forall i :: 0 <= i < |ms[1..]| ==> ms[1..][i] == ms[i + 1];
      RatingOrZero(ms[0]) + RatingSum(ms[1..])
  }

  /** Unrated records add 0, so summing over every record is summing over the rated ones. */
  lemma {:induction false} RatingSumOverRated(ms: seq<Movie>)
    ensures RatingSum(Filter(ms, IsRated)) == RatingSum(ms)
  {
    if ms != [] {
      RatingSumOverRated(ms[1..]);
    }
  }

  /** The completed records with a non-zero rating (`filter(m => m.userRating)`). */
  function RatedCompleted(ws: seq<Movie>): (r: seq<Movie>)
    ensures IsSubsequence(r, ws)
    ensures forall m :: m in r <==> m in ws && m.status == Some(Completed) && IsRated(m)
    ensures forall m ::
      multiset(r)[m] == (if m.status == Some(Completed) && IsRated(m) then multiset(ws)[m] else 0)
  {
    FilterFilter(ws, HasStatus(Completed), IsRated, RatedAndCompleted());
    Filter(CompletedMovies(ws), IsRated)
  }

  function RatedAndCompleted(): Movie -> bool {
    (m: Movie) => m.status == Some(Completed) && IsRated(m)
  }

  /**
   * The "Average Rating" card before formatting: 0 when no completed record
   * is rated, otherwise the mean of the rated ones; unrated records count
   * neither in the sum nor in the divisor.
   */
  function AverageRating(ws: seq<Movie>): (avg: real)
    ensures |RatedCompleted(ws)| == 0 ==> avg == 0.0
    ensures avg == Mean(RatingSum(RatedCompleted(ws)), |RatedCompleted(ws)|)
  {
    var completed := CompletedMovies(ws);
    var rated := RatedCompleted(ws);
    RatingSumOverRated(completed);
    assert RatingSum(completed) == RatingSum(rated);
    Mean(RatingSum(completed), |rated|)
  }

  /** The mean of `n` values adding up to `total`, and 0 for no values. */
  function Mean(total: int, n: nat): (avg: real)
    ensures n == 0 ==> avg == 0.0
    ensures n > 0 ==> avg * n as real == total as real
  {
    if n > 0 then total as real / n as real else 0.0
  }

  /**
   * The "Top Rated Movies" panel: the rated completed titles, best first,
   * the first five (all of them when there are fewer).
   */
  function TopRated(ws: seq<Movie>): (r: seq<Movie>)
    ensures |r| == if |RatedCompleted(ws)| <= 5 then |RatedCompleted(ws)| else 5
    ensures multiset(r) <= multiset(RatedCompleted(ws))
    ensures forall m :: m in r ==> m in ws && m.status == Some(Completed) && IsRated(m)
    ensures forall i :: 0 < i < |r| ==> RatingOrZero(r[i - 1]) >= RatingOrZero(r[i])
  {
    BestRatedFirst(RatedCompleted(ws));
    Take(SortBy(RatedCompleted(ws), WatchlistManagement.Before("rating")), 5)
  }

  /** Sorting by rating and cutting to five keeps the five best, best first. */
  lemma BestRatedFirst(rated: seq<Movie>)
    ensures var r := Take(SortBy(rated, WatchlistManagement.Before("rating")), 5);
      && |r| == (if |rated| <= 5 then |rated| else 5)
      && multiset(r) <= multiset(rated)
      && (forall m :: m in r ==> m in rated)
      && (forall i :: 0 < i < |r| ==> RatingOrZero(r[i - 1]) >= RatingOrZero(r[i]))
  {
    var before := WatchlistManagement.Before("rating");
    TakeSortBy(rated, before, 5);
    var r := Take(SortBy(rated, before), 5);
    forall i | 0 < i < |r| ensures RatingOrZero(r[i - 1]) >= RatingOrZero(r[i]) {
      assert before(r[i - 1], r[i]);
    }
  }

  /** A rated completed title missing from the panel is rated no higher than any title shown. */
  lemma TopRatedAreTop(ws: seq<Movie>, m: Movie, k: nat)
    requires m in ws && m.status == Some(Completed) && IsRated(m)
    requires k < |TopRated(ws)|
    ensures m in TopRated(ws) || m.userRating.value <= RatingOrZero(TopRated(ws)[k])
  {
    var rated := RatedCompleted(ws);
    var before := WatchlistManagement.Before("rating");
    assert m in rated;
    WatchlistManagement.BeforeTransitive("rating");
    TakeSortedIsTop(rated, before, 5, m, k);
    var top := Take(SortBy(rated, before), 5);
    assert top == TopRated(ws);
    if m !in top {
      assert SortBy(rated, before)[k] == top[k];
      assert WatchlistManagement.Compare("rating", top[k], m) <= 0;
    }
  }

  // ---------------------------------------------------------------------
  // Heatmap.

  datatype Day = Day(date: string, count: int)

  /**
   * The week columns of the heatmap: days are pushed onto the current week,
   * which is closed after every seventh day and after the last one.
   */
  method Weeks(data: seq<Day>) returns (weeks: seq<seq<Day>>)
    ensures Concat(weeks) == data
    ensures forall w :: 0 <= w < |weeks| - 1 ==> |weeks[w]| == 7
    ensures weeks != [] ==> 1 <= |weeks[|weeks| - 1]| <= 7
    ensures weeks == [] <==> data == []
  {
    weeks := [];
    var currentWeek: seq<Day> := [];
    var index := 0;
    while index < |data|
      invariant 0 <= index <= |data|
      invariant Concat(weeks) + currentWeek == data[..index]
      invariant forall w :: 0 <= w < |weeks| - 1 ==> |weeks[w]| == 7
      invariant weeks != [] ==> 1 <= |weeks[|weeks| - 1]| <= 7
      invariant index < |data| ==> (forall w :: 0 <= w < |weeks| ==> |weeks[w]| == 7) && |currentWeek| == index % 7
      invariant index == |data| ==> currentWeek == []
      invariant index == 0 ==> weeks == []
    {
      currentWeek := currentWeek + [data[index]];
      if (index + 1) % 7 == 0 || index == |data| - 1 {
        ConcatSnoc(weeks, currentWeek);
        weeks := weeks + [currentWeek];
        currentWeek := [];
      }
      assert data[..index + 1] == data[..index] + [data[index]];
      index := index + 1;
    }
    assert data[..index] == data;
  }

  datatype Intensity = Gray800 | Purple900 | Purple600 | Purple400

  /** `getIntensity`: 0, 1 and 2 have their own shade; anything else is the brightest. */
  function GetIntensity(count: int): (c: Intensity)
    ensures c == Gray800 <==> count == 0
    ensures c == Purple900 <==> count == 1
    ensures c == Purple600 <==> count == 2
    ensures c == Purple400 <==> count !in {0, 1, 2}
  {
    if count == 0 then Gray800
    else if count == 1 then Purple900
    else if count == 2 then Purple600
    else Purple400
  }

  /** The brightness rank of a shade. */
  function Level(c: Intensity): nat {
    match c
    case Gray800 => 0
    case Purple900 => 1
    case Purple600 => 2
    case Purple400 => 3
  }

  /** More views never give a darker cell, and the shade saturates at three. */
  lemma IntensityMonotone(a: int, b: int)
    requires 0 <= a <= b
    ensures Level(GetIntensity(a)) <= Level(GetIntensity(b))
    ensures Level(GetIntensity(a)) == if a < 3 then a else 3
  {
  }
}

=== FILE: text.dfy ===
/**
 * String operations the components rely on, with JavaScript's locale- and
 * Unicode-dependent behaviour replaced by plain character-code semantics:
 * `toLowerCase` lower-cases ASCII letters only, `localeCompare` is
 * lexicographic order on character codes, and `includes` is substring search.
 */
module Text {

  function LowerChar(c: char): char {
    if 'A' <= c <= 'Z' then (c as int + 32) as char else c
  }

  /** `s.toLowerCase()` on ASCII letters. */
  function Lower(s: string): (r: string)
    ensures |r| == |s|
    ensures forall i :: 0 <= i < |s| ==> r[i] == LowerChar(s[i])
  {
    seq(|s|, i requires 0 <= i < |s| => LowerChar(s[i]))
  }

  /** Lower-casing twice is lower-casing once. */
  lemma LowerIdempotent(s: string)
    ensures Lower(Lower(s)) == Lower(s)
  {
  }

  /** `needle` stands in `hay` starting at index `i`. */
  predicate OccursAt(hay: string, needle: string, i: nat) {
    i + |needle| <= |hay| && hay[i..i + |needle|] == needle
  }

  /** `hay.includes(needle)`. */
  function Includes(hay: string, needle: string): (b: bool)
    ensures b <==> exists i: nat :: OccursAt(hay, needle, i)
  {
    if needle <= hay then
      assert OccursAt(hay, needle, 0);
      true
    else if hay == [] then
      assert forall i: nat :: !OccursAt(hay, needle, i);
      false
    else
      var rest := Includes(hay[1..], needle);
      IncludesShift(hay, needle);
      rest
  }

  lemma IncludesShift(hay: string, needle: string)
    requires hay != [] && !(needle <= hay)
    ensures (exists i: nat :: OccursAt(hay, needle, i)) <==> (exists i: nat :: OccursAt(hay[1..], needle, i))
  {
    forall i: nat | OccursAt(hay, needle, i)
      ensures OccursAt(hay[1..], needle, i - 1)
    {
      assert i > 0;
      assert hay[1..][i - 1..i - 1 + |needle|] == hay[i..i + |needle|];
    }
    forall i: nat | OccursAt(hay[1..], needle, i)
      ensures OccursAt(hay, needle, i + 1)
    {
      assert hay[1..][i..i + |needle|] == hay[i + 1..i + 1 + |needle|];
    }
  }

  /**
   * `a.localeCompare(b)` as lexicographic order on character codes:
   * negative, zero or positive as `a` sorts before, equal to, or after `b`.
   */
  function Compare(a: string, b: string): (r: int)
    ensures -1 <= r <= 1
    ensures r == 0 <==> a == b
    ensures a < b ==> r == -1
    ensures b < a ==> r == 1
    ensures forall i :: 0 <= i < |a| && i < |b| && a[..i] == b[..i] && a[i] != b[i] ==>
      (r == -1 <==> a[i] < b[i])
  {
    if a == [] && b == [] then 0
    else if a == [] then -1
    else if b == [] then 1
    else if a[0] < b[0] then -1
    else if a[0] > b[0] then 1
    else
      assert a == [a[0]] + a[1..] && b == [b[0]] + b[1..];
      assert forall i :: 0 < i <= |a| && i <= |b| && a[..i] == b[..i] ==> a[1..][..i - 1] == b[1..][..i - 1];
      Compare(a[1..], b[1..])
  }

  /** Swapping the arguments negates the comparison. */
  lemma {:induction false} CompareAntisymmetric(a: string, b: string)
    ensures Compare(b, a) == -Compare(a, b)
  {
    if a != [] && b != [] && a[0] == b[0] {
      CompareAntisymmetric(a[1..], b[1..]);
    }
  }

  /** `a` sorts no later than `b`. */
  predicate AtMost(a: string, b: string) {
    Compare(a, b) <= 0
  }

  lemma {:induction false} AtMostTransitive(a: string, b: string, c: string)
    requires AtMost(a, b) && AtMost(b, c)
    ensures AtMost(a, c)
  {
    if a != [] && b != [] && c != [] && a[0] == b[0] == c[0] {
      AtMostTransitive(a[1..], b[1..], c[1..]);
    }
  }
}

=== FILE: userprofile.dfy ===
/**
 * The profile page: the edit form over the signed-in user, the favourite
 * genre toggle, save and cancel, and the watch-time display.
 */
module UserProfile {
  import opened Seqs
  import opened App
  import Duration

  /** The `formData` state: the three fields the page lets the user edit. */
  datatype ProfileForm = ProfileForm(name: string, email: string, favoriteGenres: seq<string>)

  /** The form as first shown, and as `handleCancel` resets it: the user's own values. */
  function FormOf(u: User): (f: ProfileForm)
    ensures f.name == u.name && f.email == u.email && f.favoriteGenres == u.favoriteGenres
  {
    ProfileForm(u.name, u.email, u.favoriteGenres)
  }

  function Other(genre: string): string -> bool {
    (g: string) => g != genre
  }

  /**
   * `handleGenreToggle`: a genre already chosen is removed, every copy of it,
   * the rest keeping their order; a new one is appended.
   */
  function ToggleGenre(f: ProfileForm, genre: string): (r: ProfileForm)
    ensures r.name == f.name && r.email == f.email
    ensures genre !in f.favoriteGenres ==> r.favoriteGenres == f.favoriteGenres + [genre]
    ensures genre in f.favoriteGenres ==>
      IsSubsequence(r.favoriteGenres, f.favoriteGenres)
      && |r.favoriteGenres| < |f.favoriteGenres|
    ensures genre in r.favoriteGenres <==> genre !in f.favoriteGenres
    ensures forall g :: g != genre ==> (g in r.favoriteGenres <==> g in f.favoriteGenres)
    ensures genre in f.favoriteGenres ==> forall g ::
      multiset(r.favoriteGenres)[g] == if g == genre then 0 else multiset(f.favoriteGenres)[g]
  {
    var genres := f.favoriteGenres;
    if genre in genres then
      FilterShorter(genres, Other(genre), genre);
      f.(favoriteGenres := Filter(genres, Other(genre)))
    else
      f.(favoriteGenres := genres + [genre])
  }

  lemma {:induction false} FilterShorter<T(!new)>(s: seq<T>, p: T -> bool, x: T)
    requires x in s && !p(x)
    ensures |Filter(s, p)| < |s|
  {
    if s[0] != x {
      FilterShorter(s[1..], p, x);
    }
  }

  /** Toggling a genre that was not chosen, twice, restores the list. */
  lemma ToggleTwiceRestores(f: ProfileForm, genre: string)
    requires genre !in f.favoriteGenres
    ensures ToggleGenre(ToggleGenre(f, genre), genre) == f
  {
    FilterConcat(f.favoriteGenres, [genre], Other(genre));
    FilterAll(f.favoriteGenres, Other(genre));
  }

  /** Toggling a chosen genre twice moves it to the end. */
  lemma ToggleTwiceMovesToEnd(f: ProfileForm, genre: string)
    requires genre in f.favoriteGenres
    ensures ToggleGenre(ToggleGenre(f, genre), genre).favoriteGenres
      == Filter(f.favoriteGenres, Other(genre)) + [genre]
  {
  }

  /** `handleSave`: the form's three fields replace the user's; id, avatar and watch time are kept. */
  function HandleSave(u: User, f: ProfileForm): (r: User)
    ensures FormOf(r) == f
    ensures r.id == u.id && r.avatar == u.avatar && r.totalWatchTime == u.totalWatchTime
  {
    u.(name := f.name, email := f.email, favoriteGenres := f.favoriteGenres)
  }

  /** `handleCancel` drops the edits, whatever they were. */
  function HandleCancel(u: User, edited: ProfileForm): (f: ProfileForm)
    ensures HandleSave(u, f) == u
  {
    FormOf(u)
  }

  /** Saving and then cancelling shows the saved values. */
  lemma SaveThenCancel(u: User, f: ProfileForm, later: ProfileForm)
    ensures HandleCancel(HandleSave(u, f), later) == f
  {
  }

  /** `formatWatchTime` as its hours and minutes parts. */
  function FormatWatchTime(minutes: int): (hm: (int, int))
    ensures minutes >= 0 ==> hm.0 * 60 + hm.1 == minutes && 0 <= hm.1 < 60
  {
    Duration.HoursMinutes(minutes)
  }
}

=== FILE: watchlist.dfy ===
/**
 * The watchlist manager: the status and genre filter, the four sort keys,
 * the genre list of the filter menu, the per-status counts of the tab bar and
 * the status change made from a card's menu.
 */
module WatchlistManagement {
  import opened Wrappers
  import opened Seqs
  import Text
  import opened App

  // ---------------------------------------------------------------------
  // Filter. The selections are the strings the buttons and the menu set:
  // "all" or a status name, "all" or a genre.

  predicate StatusMatches(selectedStatus: string, m: Movie) {
    selectedStatus == "all" || (m.status.Some? && StatusName(m.status.value) == selectedStatus)
  }

  predicate GenreMatches(selectedGenre: string, m: Movie) {
    selectedGenre == "all" || selectedGenre in m.genre
  }

  function Keeps(selectedStatus: string, selectedGenre: string): Movie -> bool {
    (m: Movie) => StatusMatches(selectedStatus, m) && GenreMatches(selectedGenre, m)
  }

  /** `filteredMovies`: both selections must match, and "all" matches everything. */
  function FilteredMovies(ws: seq<Movie>, selectedStatus: string, selectedGenre: string): (r: seq<Movie>)
    ensures IsSubsequence(r, ws)
    ensures forall m :: m in r <==>
      m in ws
      && (selectedStatus == "all" || (m.status.Some? && StatusName(m.status.value) == selectedStatus))
      && (selectedGenre == "all" || selectedGenre in m.genre)
    ensures forall m ::
      multiset(r)[m] == (if StatusMatches(selectedStatus, m) && GenreMatches(selectedGenre, m) then multiset(ws)[m] else 0)
  {
    Filter(ws, Keeps(selectedStatus, selectedGenre))
  }

  /** With both selections at "all" the whole watchlist is shown. */
  lemma FilterAllShowsEverything(ws: seq<Movie>)
    ensures FilteredMovies(ws, "all", "all") == ws
  {
    FilterAll(ws, Keeps("all", "all"));
  }

  /** Selecting a status with every genre shows exactly the records with that status, in order. */
  lemma FilterByStatus(ws: seq<Movie>, st: Status)
    ensures FilteredMovies(ws, StatusName(st), "all") == Filter(ws, HasStatus(st))
  {
    FilterSameTest(ws, Keeps(StatusName(st), "all"), HasStatus(st));
  }

  lemma {:induction false} FilterSameTest(ws: seq<Movie>, p: Movie -> bool, q: Movie -> bool)
    requires forall m: Movie :: p(m) == q(m)
    ensures Filter(ws, p) == Filter(ws, q)
  {
    if ws != [] {
      FilterSameTest(ws[1..], p, q);
    }
  }

  // ---------------------------------------------------------------------
  // Sort. `Compare` is the comparator of `sortedMovies`; the same comparators
  // order the home feed and the statistics view.

  /**
   * The comparator of `sortedMovies`, with the sign convention of
   * `Array.prototype.sort`: negative or zero lets `a` stay in front of `b`.
   * Titles ascend, years and ratings descend, dates descend where both are
   * set, and anything else ties.
   */
  function Compare(sortBy: string, a: Movie, b: Movie): (r: int)
    ensures sortBy == "title" ==> (r == 0 <==> a.title == b.title) && (r <= 0 <==> Text.AtMost(a.title, b.title))
    ensures sortBy == "year" ==> (r <= 0 <==> a.year >= b.year) && (r == 0 <==> a.year == b.year)
    ensures sortBy == "rating" ==> (r <= 0 <==> RatingOrZero(a) >= RatingOrZero(b))
    ensures sortBy == "dateAdded" && HasDate(a.dateWatched) && HasDate(b.dateWatched) ==>
      (r <= 0 <==> Text.AtMost(b.dateWatched.value, a.dateWatched.value))
    ensures sortBy == "dateAdded" && !(HasDate(a.dateWatched) && HasDate(b.dateWatched)) ==> r == 0
    ensures sortBy !in {"title", "year", "rating", "dateAdded"} ==> r == 0
  {
    if sortBy == "title" then Text.Compare(a.title, b.title)
    else if sortBy == "year" then b.year - a.year
    else if sortBy == "rating" then RatingOrZero(b) - RatingOrZero(a)
    else if sortBy == "dateAdded" then
      // `new Date('')` and a missing date give NaN, which the sort reads as 0
      if HasDate(a.dateWatched) && HasDate(b.dateWatched)
      then Text.Compare(b.dateWatched.value, a.dateWatched.value)
      else 0
    else 0
  }

  /** Swapping the two records negates every comparator. */
  lemma CompareAntisymmetric(sortBy: string)
    ensures forall a: Movie, b: Movie :: Compare(sortBy, b, a) == -Compare(sortBy, a, b)
  {
    forall a: Movie, b: Movie ensures Compare(sortBy, b, a) == -Compare(sortBy, a, b) {
      Text.CompareAntisymmetric(a.title, b.title);
      if HasDate(a.dateWatched) && HasDate(b.dateWatched) {
        Text.CompareAntisymmetric(a.dateWatched.value, b.dateWatched.value);
      }
    }
  }

  /**
   * `a` may stay in front of `b`. Since every comparator is antisymmetric,
   * any two records are ordered one way or the other.
   */
  function Before(sortBy: string): (before: (Movie, Movie) -> bool)
    ensures Total(before)
  {
    CompareAntisymmetric(sortBy);
    (a: Movie, b: Movie) => Compare(sortBy, a, b) <= 0
  }

  /**
   * Title, year and rating are consistent orders. `dateAdded` is not when a
   * date is missing: such a record ties with every other one.
   */
  lemma BeforeTransitive(sortBy: string)
    requires sortBy in {"title", "year", "rating"}
    ensures Transitive(Before(sortBy))
  {
    forall a: Movie, b: Movie, c: Movie | Before(sortBy)(a, b) && Before(sortBy)(b, c)
      ensures Before(sortBy)(a, c)
    {
      if sortBy == "title" {
        Text.AtMostTransitive(a.title, b.title, c.title);
      }
    }
  }

  /** `sortedMovies`: a stable sort of the filtered list. */
  function SortedMovies(filtered: seq<Movie>, sortBy: string): (r: seq<Movie>)
    ensures multiset(r) == multiset(filtered)
    ensures SortedBy(r, Before(sortBy))
  {
    SortBySorted(filtered, Before(sortBy));
    SortBy(filtered, Before(sortBy))
  }

  /** What "sorted" means for each key, between neighbours. */
  lemma SortedMoviesOrder(filtered: seq<Movie>, sortBy: string, i: int)
    requires 0 < i < |SortedMovies(filtered, sortBy)|
    ensures var r := SortedMovies(filtered, sortBy);
      && (sortBy == "title" ==> Text.AtMost(r[i - 1].title, r[i].title))
      && (sortBy == "year" ==> r[i - 1].year >= r[i].year)
      && (sortBy == "rating" ==> RatingOrZero(r[i - 1]) >= RatingOrZero(r[i]))
      && (sortBy == "dateAdded" && HasDate(r[i - 1].dateWatched) && HasDate(r[i].dateWatched) ==>
            Text.AtMost(r[i].dateWatched.value, r[i - 1].dateWatched.value))
  {
    var r := SortedMovies(filtered, sortBy);
    assert Before(sortBy)(r[i - 1], r[i]);
  }

  /** An unrecognised key compares everything equal, and the stable sort keeps the filtered order. */
  lemma UnknownKeyKeepsOrder(filtered: seq<Movie>, sortBy: string)
    requires sortBy !in {"title", "year", "rating", "dateAdded"}
    ensures SortedMovies(filtered, sortBy) == filtered
  {
    SortByKeepsOrder(filtered, Before(sortBy));
  }

  function SameYear(y: int): Movie -> bool {
    (m: Movie) => m.year == y
  }

  /** Sorting by year keeps records of the same year in their filtered order. */
  lemma YearSortStable(filtered: seq<Movie>, y: int)
    ensures Filter(SortedMovies(filtered, "year"), SameYear(y)) == Filter(filtered, SameYear(y))
  {
    SortByStable(filtered, Before("year"), SameYear(y));
  }

  // ---------------------------------------------------------------------
  // Genre menu and tab counts.

  /** `allGenres`: each genre of the watchlist once, in order of first appearance. */
  function AllGenres(ws: seq<Movie>): (r: seq<string>)
    ensures NoDuplicates(r)
    ensures forall g :: g in r <==> exists i :: 0 <= i < |ws| && g in ws[i].genre
  {
    Dedup(Genres(ws))
  }

  datatype StatusCounts = StatusCounts(
    all: nat, watching: nat, planToWatch: nat, completed: nat, dropped: nat, onHold: nat)

  /** The number of records with status `st`: the length of that status's tab. */
  function CountStatus(ws: seq<Movie>, st: Status): (n: nat)
    ensures n == |FilteredMovies(ws, StatusName(st), "all")|
    ensures n <= |ws|
  {
    FilterByStatus(ws, st);
    Tab(ws, st)
  }

  /** The length of the plain status filter, which `CountStatus` equals. */
  function Tab(ws: seq<Movie>, st: Status): nat {
    |Filter(ws, HasStatus(st))|
  }

  function Tally(c: StatusCounts): nat {
    c.watching + c.planToWatch + c.completed + c.dropped + c.onHold
  }

  /**
   * `statusCounts`: each count is the number of records its tab shows. A
   * record without a status is counted under "all" only, so the five status
   * counts add up to at most "all".
   */
  function GetStatusCounts(ws: seq<Movie>): (c: StatusCounts)
    ensures c.all == |ws| == |FilteredMovies(ws, "all", "all")|
    ensures c.watching == |FilteredMovies(ws, StatusName(Watching), "all")|
    ensures c.planToWatch == |FilteredMovies(ws, StatusName(PlanToWatch), "all")|
    ensures c.completed == |FilteredMovies(ws, StatusName(Completed), "all")|
    ensures c.dropped == |FilteredMovies(ws, StatusName(Dropped), "all")|
    ensures c.onHold == |FilteredMovies(ws, StatusName(OnHold), "all")|
    ensures Tally(c) <= c.all
    ensures (forall i :: 0 <= i < |ws| ==> ws[i].status.Some?) ==> Tally(c) == c.all
  {
    FilterAllShowsEverything(ws);
    StatusCountsAddUp(ws);
    StatusCounts(|ws|, CountStatus(ws, Watching), CountStatus(ws, PlanToWatch),
      CountStatus(ws, Completed), CountStatus(ws, Dropped), CountStatus(ws, OnHold))
  }

  /** The number of records that carry no status. */
  function Unset(ws: seq<Movie>): nat {
    |Filter(ws, NoStatus())|
  }

  function NoStatus(): Movie -> bool {
    (m: Movie) => m.status.None?
  }

  /** Each record is counted under exactly one of the five statuses or under none. */
  lemma {:induction false} StatusCountsAddUp(ws: seq<Movie>)
    ensures Tab(ws, Watching) + Tab(ws, PlanToWatch) + Tab(ws, Completed)
      + Tab(ws, Dropped) + Tab(ws, OnHold) + Unset(ws) == |ws|
    ensures (forall i :: 0 <= i < |ws| ==> ws[i].status.Some?) ==> Unset(ws) == 0
  {
    if ws != [] {
      var t := ws[1..];
      StatusCountsAddUp(t);
      assert forall i :: 0 <= i < |t| ==> t[i] == ws[i + 1];
      TabCons(ws, Watching);
      TabCons(ws, PlanToWatch);
      TabCons(ws, Completed);
      TabCons(ws, Dropped);
      TabCons(ws, OnHold);
      UnsetCons(ws);
      ExactlyOneStatus(ws[0].status);
      if ws[0].status.None? {
        assert !(forall i :: 0 <= i < |ws| ==> ws[i].status.Some?);
      }
    }
  }

  function Is(o: Option<Status>, st: Status): nat {
    if o == Some(st) then 1 else 0
  }

  /** A record's status is one of the five or none. */
  lemma ExactlyOneStatus(o: Option<Status>)
    ensures Is(o, Watching) + Is(o, PlanToWatch) + Is(o, Completed) + Is(o, Dropped) + Is(o, OnHold)
      + (if o.None? then 1 else 0) == 1
  {
    match o
    case None =>
    case Some(Watching) =>
    case Some(PlanToWatch) =>
    case Some(Completed) =>
    case Some(Dropped) =>
    case Some(OnHold) =>
  }

  lemma TabCons(ws: seq<Movie>, st: Status)
    requires ws != []
    ensures Tab(ws, st) == Tab(ws[1..], st) + Is(ws[0].status, st)
  {
  }

  lemma UnsetCons(ws: seq<Movie>)
    requires ws != []
    ensures Unset(ws) == Unset(ws[1..]) + (if ws[0].status.None? then 1 else 0)
  {
  }

  // ---------------------------------------------------------------------
  // Status change from a card's menu.

  /**
   * `handleStatusChange`, with the card's select as its input: `None` is the
   * "Select Status" choice, whose value `""` the record then stores and every
   * later test treats as no status. The new status is stored as chosen, and
   * `today` is stamped as the watch date only when the record becomes
   * completed with no watch date yet.
   */
  function HandleStatusChange(m: Movie, newStatus: Option<Status>, today: string): (r: Movie)
    ensures r.status == newStatus
    ensures newStatus == Some(Completed) && !HasDate(m.dateWatched) ==> r.dateWatched == Some(today)
    ensures !(newStatus == Some(Completed) && !HasDate(m.dateWatched)) ==> r.dateWatched == m.dateWatched
    ensures r.(status := m.status, dateWatched := m.dateWatched) == m
  {
    var updated := m.(status := newStatus);
    if newStatus == Some(Completed) && !HasDate(m.dateWatched) then updated.(dateWatched := Some(today))
    else updated
  }

  /** Once a watch date is set, no later status change moves it. */
  lemma StampedOnce(m: Movie, first: Option<Status>, second: Option<Status>, today: string, later: string)
    requires today != ""
    ensures var once := HandleStatusChange(m, first, today);
      HandleStatusChange(once, second, later).dateWatched == once.dateWatched
      || (first != Some(Completed) && second == Some(Completed) && !HasDate(m.dateWatched))
  {
  }

  /** Choosing the same status twice is choosing it once. */
  lemma StatusChangeIdempotent(m: Movie, st: Option<Status>, today: string, later: string)
    requires today != ""
    ensures HandleStatusChange(HandleStatusChange(m, st, today), st, later) == HandleStatusChange(m, st, today)
  {
  }

  // ---------------------------------------------------------------------
  // The cards' status badges.

  /** The `label` of a status in `statusConfig`. */
  function StatusLabel(st: Status): string {
    match st
    case Watching => "Watching"
    case PlanToWatch => "Plan to Watch"
    case Completed => "Completed"
    case Dropped => "Dropped"
    case OnHold => "On Hold"
  }

  /** A render that either produces its value or throws a `TypeError`. */
  datatype Render<T> = Drawn(value: T) | TypeError

  /**
   * The grid as written: every card looks up `statusConfig[movie.status!]`
   * and reads `.icon` from it, which throws for a record without a status,
   * and one throwing card aborts the whole render.
   */
  function GridAsWritten(ms: seq<Movie>): (r: Render<seq<string>>)
    ensures r.TypeError? <==> exists i :: 0 <= i < |ms| && ms[i].status.None?
    ensures r.Drawn? ==> |r.value| == |ms| && forall i :: 0 <= i < |ms| ==> r.value[i] == StatusLabel(ms[i].status.value)
  {
    if ms == [] then Drawn([])
    else if ms[0].status.None? then TypeError
    else
      match GridAsWritten(ms[1..])
      case TypeError =>
        assert forall i :: 0 <= i < |ms[1..]| ==> ms[1..][i] == ms[i + 1];
        TypeError
      case Drawn(rest) =>
        assert forall i :: 0 <= i < |ms[1..]| ==> ms[1..][i] == ms[i + 1];
        Drawn([StatusLabel(ms[0].status.value)] + rest)
  }

  /**
   * Choosing "Select Status" on any card breaks the watchlist view: the
   * record is stored without a status, and the next render of the unfiltered
   * grid throws, whatever the sort key.
   */
  lemma SelectStatusBreaksGrid(ws: seq<Movie>, i: int, today: string, sortBy: string)
    requires 0 <= i < |ws|
    ensures var after := ReplaceById(ws, HandleStatusChange(ws[i], None, today));
      GridAsWritten(SortedMovies(FilteredMovies(after, "all", "all"), sortBy)).TypeError?
  {
    var updated := HandleStatusChange(ws[i], None, today);
    var after := ReplaceById(ws, updated);
    ReplaceByIdAt(ws, updated, i);
    FilterAllShowsEverything(after);
    var sorted := SortedMovies(after, sortBy);
    assert after[i] in multiset(sorted);
    var k :| 0 <= k < |sorted| && sorted[k] == after[i];
  }

  /**
   * The grid as evidently intended: a record without a status is drawn
   * without a badge (`None`), every other card with its status's label.
   */
  function Grid(ms: seq<Movie>): (r: seq<Option<string>>)
    ensures |r| == |ms|
    ensures forall i :: 0 <= i < |ms| ==> (r[i].None? <==> ms[i].status.None?)
    ensures forall i :: 0 <= i < |ms| && ms[i].status.Some? ==> r[i] == Some(StatusLabel(ms[i].status.value))
  {
    seq(|ms|, i requires 0 <= i < |ms| => if ms[i].status.Some? then Some(StatusLabel(ms[i].status.value)) else None)
  }

  /** Where the grid as written draws, the intended grid draws the same badges. */
  lemma GridAgreesWhenDrawn(ms: seq<Movie>)
    ensures GridAsWritten(ms).Drawn? ==>
      forall i :: 0 <= i < |ms| ==> Grid(ms)[i] == Some(GridAsWritten(ms).value[i])
  {
  }

  /** The intended grid survives "Select Status": the record is still drawn, without a badge. */
  lemma SelectStatusKeepsCard(ws: seq<Movie>, i: int, today: string)
    requires 0 <= i < |ws|
    ensures var after := ReplaceById(ws, HandleStatusChange(ws[i], None, today));
      |Grid(after)| == |ws| && Grid(after)[i] == None
  {
    ReplaceByIdAt(ws, HandleStatusChange(ws[i], None, today), i);
  }
}

=== FILE: wrappers.dfy ===
/** Optional values: the model of a TypeScript field declared with `?` (absent or present). */
module Wrappers {

  datatype Option<+T> = None | Some(value: T) {

    /** The value if present, else `default` (the `x ?? default` idiom). */
    function GetOr(default: T): T {
      match this
      case Some(v) => v
      case None => default
    }
  }
}
